=== FILE: README.md ===
# VEX robot serial server and shell — a Dafny model

This project models two sequential parts of a PROS program for a VEX
robot controller.

- **The serial session manager** in `pros/src/server.c` is the link to a
  Raspberry Pi co-processor. It keeps a two-state record, Connected or
  Disconnected, with an RPC sequence id, four millisecond timestamps and a
  peer IPv4 address. Its task loop does four things in order:
  - reads buffered serial bytes;
  - hands them one at a time to a framer, which may complete a packet and
    call back `serverRead`;
  - checks the connection against the framer's link flag and the clock;
  - runs one unit of RPC work while connected, then paces itself with a
    2 ms delay.

  Outgoing packets go through `serverWrite`, which retries until the
  transport has taken the whole buffer.
- **The console shell** in `pros/src/shell.c` has three parts:
  - `shellGetLine` is a byte-driven line editor. It has a one-line history,
    backspace, an ESC `[` `A` recall sequence and bytes it consumes without
    storing.
  - `_strtok` is a `strtok_r`-style tokenizer.
  - `shellThreadRun` and `shellExec` split a line into a command and at most
    four arguments. They then dispatch the command by case-insensitive name:
    built-ins first, then the shell's own table, then the user's table.

Most of the model is pure functions over immutable values. The loops over
buffers are methods with loop invariants: `SerialIo.AsynchronousRead` and
`SerialIo.AsynchronousWrite` (the driver's copies), and `SerialIo.Transfer`
with `SerialIo.Write` (the `serverWrite` retry loop). `ServerLoop.SendThroughDriver`
is a method too, because it runs that loop. Bytes are `u8`, clock readings are `u32`, and elapsed time is
computed modulo 2^32. Some parts of the system are not modelled directly
but passed in as parameters:

- **The framer** (`sfpInit`, `sfpDeliverOctet`, `sfpWritePacket`,
  `sfpIsConnected`) is `Session.Framer`: an initial state, a byte-delivery
  step, a framing step that turns a payload into the frame to write, and a
  link query.
- **The RPC layer** (`message_deserialize`, `rpcRecv`, `rpcLoop`) is
  `ServerLoop.RpcLayer`. `rpcRecv` and `rpcLoop` return the updated RPC
  record and the payloads they hand to `writePacket`. Each payload is
  framed and written by `serverWrite`, whose connection check runs right
  after the write.
- **The clock** is a `now` argument for a single operation. In the task
  loop it is a `ServerLoop.Clock`, the reading at each event of the
  iteration, so checks made at different points can see different times.
- **The serial driver** is two things. Its input is the queue of buffered
  bytes. Its output is the sequence of byte counts it accepts on successive
  write calls.
- **Order and pacing** are recorded in `Event` traces: octets, packets,
  checks, RPC work, sleeps and transmissions.
- **Shell input** is a sequence of tokens, each either a byte or an
  explicit end of input.

Modules:

- `common.dfy` (`Common`): byte and word types, `Option`, `Min`/`Max`,
  C strings.
- `session.dfy` (`Session`): the session record and the connection state
  machine, reset, the public queries and the task handle.
- `serial_io.dfy` (`SerialIo`): the asynchronous read and write primitives
  and the `serverWrite` retry loop.
- `server_loop.dfy` (`ServerLoop`): `serverRead`, `serverWritePacket`,
  byte delivery and one iteration of `serverThread`.
- `line_editor.dfy` (`LineEditor`): `shellGetLine`.
- `tokenizer.dfy` (`Tokenizer`): `_strtok`, with a reference definition of
  the words of a line.
- `dispatch.dfy` (`Dispatch`): argument splitting, `shellExec`, the dispatch
  decision and a whole shell session.

## Behaviour as coded

- **Initial state.** The static `server` record is zero-initialised, and
  `serverStateConnected` is the enumerator with value 0. So the record
  reads as Connected until `serverInit` resets it (`Session.StartupOrder`).
- **Reset.** `serverReset` refreshes only the message timestamp. The
  heartbeat, published and stats timestamps are set to the current time
  only in two places: on the Disconnected→Connected transition and when the
  server task starts (`Session.Reset`, `Session.ThreadStart`).
- **Writes check the connection.** `serverWrite` ends with a connection
  check, so the RPC work of an iteration can reset the session when it
  sends a packet, after the iteration's own check has kept it
  (`ServerLoop.RpcWriteCanDisconnect`).
- **Pacing.** Both the task loop and the write retry sleep for the literal
  2 ms. Neither uses the `SERVER_WAIT_MILLISECONDS` constant.
- **Delimiters.** The shell's delimiter literal `" \009"` is a space,
  followed by an octal `\00` NUL, followed by `'9'`. The tokenizer
  therefore splits at spaces only; a tab is not a delimiter
  (`Tokenizer.OnlySpaceDelimits`).

## Model

| member | source | states |
|---|---|---|
| Session.Elapsed | pros/include/convex_compat.h:13-14 | elapsed time is `now - start` when the clock has not wrapped, and `2^32 - (start - now)` when it has |
| Session.Zeroed | pros/src/server.c:16-26 | the zero-initialised static record is Connected, with no peer address, a zero sequence id, all four timestamps zero and the framer state as given |
| Session.Init | pros/src/server.c:88-95 | after `serverInit` the session is Disconnected with no peer and a zero sequence id, the message timestamp is now, the heartbeat is kept, and the framer is freshly initialised |
| Session.IsConnected | pros/src/server.c:123-127 | the query answers connected exactly when the state is not Disconnected |
| Session.GetIpv4 | pros/src/server.c:132-138 | a disconnected session that keeps the session invariant reports the address 0.0.0.0 |
| Session.Reset | pros/src/server.c:204-216 | reset disconnects, zeroes the sequence id and the peer address, sets only the message timestamp to now, keeps the other three timestamps, and installs a fresh framer |
| Session.ThreadStart | pros/src/server.c:170-171 | at task start all four timestamps become now; state and framer are unchanged |
| Session.CheckConnection | pros/src/server.c:274-288 | from Disconnected it connects exactly when the framer reports a link; from Connected it stays connected exactly when the link is not lost; the result is unchanged, refreshed or reset; a disconnected session's framer and sequence id are untouched; the no-peer invariant is preserved |
| Session.ConnectTransition | pros/src/server.c:277-281 | from Disconnected, a linked framer gives Connected with all four timestamps equal to now and the rest untouched; an unlinked framer changes nothing |
| Session.DisconnectCondition | pros/src/server.c:282-287 | from Connected, a check resets if and only if the framer is unlinked, `(now - heartbeat) mod 2^32 > 5000` or `(now - timestamp) mod 2^32 > 2147483647`; otherwise nothing changes |
| Session.HeartbeatBoundary | pros/src/server.c:283-284 | a heartbeat aged exactly 5000 ms keeps the session; one aged 5001 ms resets it |
| Session.HeartbeatAgeAcrossWrap | pros/include/convex_compat.h:14 | heartbeat age is counted across the 2^32 wrap of the clock: 5000 ms after 0xFFFFF000 still connected, 5001 ms after reset |
| Session.ConnectIsNotUndone | pros/src/server.c:274-288 | one check makes at most one transition: connecting is never followed by a reset in the same call, and an immediate second check changes nothing |
| Session.ResetClearsSession | pros/src/server.c:123-138 | after any reset the session reads as not connected, its address as 0.0.0.0 and its sequence id as 0; resetting twice is resetting once |
| Session.StartupOrder | pros/src/server.c:88-95 | the static record reads as Connected before `serverInit` and as Disconnected after it; the heartbeat keeps its zero value |
| Session.NeverConnected | pros/src/server.c:277-281 | if the framer never reports a link, any run of checks leaves a reset session exactly as it was: disconnected, with no peer |
| Session.SteadyRun | pros/src/server.c:282-287 | with a linked framer, a connected session stays connected after every check of a run of heartbeats and checks exactly when each check comes at most 5000 ms after the latest heartbeat and within the message-timestamp guard; the run then changes only the heartbeat, to the latest one |
| Session.TimelyRunThenSilence | pros/src/server.c:274-288 | after a timely run the session has been connected throughout and holds the latest heartbeat; a further check more than 5000 ms after that heartbeat disconnects |
| Session.HeartbeatingIsTimely | pros/src/server.c:282-284 | the sample run, a heartbeat each second up to 6000 ms with checks in between and the last check 5000 ms after the last heartbeat, is timely from a connect at 0, and its latest heartbeat is 6000 |
| Session.HeartbeatTimeout | pros/src/server.c:283 | any check more than 5000 ms after the last heartbeat disconnects and clears the peer address |
| Session.ConnectThenSilence | pros/src/server.c:274-288 | connect at t=0 with no further heartbeat: still connected at 4999, disconnected with a cleared address at 5001 |
| Session.SteadyHeartbeatScenario | pros/src/server.c:274-288 | connect at t=0, then a heartbeat every second up to t=6000 with checks in between, the last one at 11000: connected after every check, holding the heartbeat 6000, and disconnected by a check at 11001 |
| Session.Start | pros/src/server.c:100-109 | with a task handle already recorded nothing changes; otherwise the handle is whatever task creation returned; the session is untouched |
| Session.Stop | pros/src/server.c:114-118 | stop clears the handle and touches no session field |
| Session.StartStopHandle | pros/src/server.c:100-118 | starting twice creates one task; after a stop a new task can be created |
| SerialIo.AsynchronousRead | pros/src/server.c:40-58 | the read returns `min(len, buffered)` bytes, never more than `len`, none when `len` is 0 or nothing is buffered, and the bytes are the head of the buffer in arrival order |
| SerialIo.AsynchronousWrite | pros/src/server.c:60-71 | the write reports exactly `len` and puts out the first `len` bytes in order |
| SerialIo.Attempts | pros/src/server.c:240-244 | the first write attempt is made before the loop tests the remaining length, so there is always at least one attempt |
| SerialIo.Transfer | pros/src/server.c:240-259 | the retry loop's attempt sizes are the plan `Attempts`; the accepted chunks concatenate to a prefix of the buffer; there is one pause between consecutive attempts; the loop finishes exactly when the whole buffer has gone |
| SerialIo.WriteStep | pros/src/server.c:244-259 | one more attempt keeps the loop's progress invariant: chunks in order, bytes sent, remaining plan |
| SerialIo.Paced | pros/src/server.c:244-252 | the event trace of the attempts alternates transmissions (even positions, the chunks in order) with 2 ms pauses (odd positions) |
| SerialIo.Write | pros/src/server.c:229-265 | the write completes exactly when the transport's offers cover the buffer; it has then transmitted the whole buffer in order, paced, before a connection check; it returns 0 and reports the full length through `outlen` when one is passed; a stalled write has sent a proper prefix |
| SerialIo.AttemptsShape | pros/src/server.c:240-259 | each attempt takes at most what the transport offers; the attempts together take at most the buffer; they stop before the offers run out only when the buffer is done |
| SerialIo.AttemptsTotal | pros/src/server.c:240-259 | the attempts take in total the lesser of the buffer size and everything the transport offers |
| SerialIo.StalledMeansTransportExhausted | pros/src/server.c:244-259 | a write that does not complete used every offer, and the offers sum to less than the buffer |
| SerialIo.ConstantTransport | pros/src/server.c:240-259 | against a transport taking k bytes per call, n bytes go in ceil(n/k) attempts (the least c with n <= c*k); an empty buffer takes one attempt |
| SerialIo.HundredBytesTenAtATime | pros/src/server.c:240-259 | 100 bytes at 10 per call go in 10 attempts |
| SerialIo.WholeBufferDriver | pros/src/server.c:60-71 | a driver that takes the whole buffer on the first call leads to a single attempt |
| ServerLoop.SendThroughDriver | pros/src/server.c:229-272 | writing one packet: `serverWrite`, given the frame built from the payload and a driver that takes the whole buffer, completes in one attempt, transmits that frame, runs its connection check one event later and returns 0, which is what `ServerLoop.SendPacket` records |
| ServerLoop.SendPacket | pros/src/server.c:267-272 | one packet write is the frame's transmission, then `serverWrite`'s connection check one event later; a connected session survives it exactly when that check finds the link up and heartbeat and timestamp within their limits, and then only the framer state has changed; otherwise the framer state is the encoder's or the session is reset |
| ServerLoop.SendAll | pros/src/server.c:229-265 | the packets an RPC step sends are written in order, each as one transmission followed by `serverWrite`'s connection check |
| ServerLoop.SendAllAppend | pros/src/server.c:267-272 | sending `a + b` is sending `a`, then `b` from the session `a` left and two events on per packet of `a`, with the traces one after the other |
| ServerLoop.ServerRead | pros/src/server.c:218-227 | a delivered packet records whether it deserialised; transmission/check pairs follow, the writes made during `rpcRecv` (which ones is `ServerLoop.RepliedPayload`'s contract); the callback's own check comes last; the callback hands no byte to the framer |
| ServerLoop.Step | pros/src/server.c:179-182 | a byte handed to the framer is reported first, and what it sets off only delivers: a packet, writes and checks |
| ServerLoop.Deliver | pros/src/server.c:179-182 | the bytes handed to the framer are exactly the read bytes, in order, and delivery produces only octets, packets, transmissions and checks |
| ServerLoop.QuietDelivery | pros/src/server.c:179-182 | while no byte completes a packet, delivery changes only the framer state, to what stepping the framer over the bytes gives, and reports one octet per byte |
| ServerLoop.DeliverAppend | pros/src/server.c:179-182 | delivering `a + b` is delivering `a`, then `b` from the session and event count `a` left, with the traces one after the other |
| ServerLoop.Iterate | pros/src/server.c:173-195 | an iteration reads `min(maxPacket, buffered)` bytes from the head of the buffer and hands exactly those to the framer; deliveries all come before the iteration's own check, which is the check of the delivered session at that event; RPC work and its writes follow exactly when that check leaves the session connected; the 2 ms pause comes last; a disconnected iteration ends as its check left it, and a connected one where the RPC step, run at the next event, and its writes leave it |
| ServerLoop.RpcWorkExactlyWhenConnected | pros/src/server.c:185-191 | RPC work runs in an iteration exactly when the iteration's own check leaves the session connected |
| ServerLoop.RpcWriteCanDisconnect | pros/src/server.c:187-191 | a packet `rpcLoop` sends runs `serverWrite`'s check, which can end the session inside the iteration: with a stale heartbeat at that check the iteration has run RPC work yet ends disconnected with no peer address |
| ServerLoop.DroppedPayload | pros/src/server.c:222-225 | a payload that does not deserialise never reaches `rpcRecv`: nothing is sent, the trace is the packet and the check, and the session is as the check alone leaves it |
| ServerLoop.RepliedPayload | pros/src/server.c:220-227 | a payload that deserialises reaches `rpcRecv` at the packet's event, and exactly the replies `rpcRecv` returns are then sent, all of them and in their order, one `SendPacket` each from the next event on; the callback's check follows, one event after the last write |
| ServerLoop.AcceptedPayload | pros/src/server.c:220-227 | a payload that deserialises reaches `rpcRecv` at the packet's event; when `rpcRecv` sends nothing, the session is its updated RPC record after the callback's check one event later, and the trace is the packet and that check |
| ServerLoop.HeartbeatPacketKeepsSession | pros/src/server.c:173-227 | end to end: a byte that completes a packet whose `rpcRecv` refreshes the heartbeat at that event keeps a connected session through the callback's check and the iteration's check (events 2 and 3, while the heartbeat and timestamp are within their limits there and the link is up), and the RPC work runs; the iteration's checked session is exactly the framer's new state with the refreshed record |
| ServerLoop.HeartbeatCountedBeforeCheck | pros/src/server.c:179-191 | the iteration's check comes after every delivery of the iteration: when delivery leaves the session connected with the link up and the heartbeat (whichever packet refreshed it) and timestamp within their limits at that check's clock reading, the check keeps the session and RPC work runs |
| ServerLoop.IdleIteration | pros/src/server.c:173-195 | with nothing buffered an iteration is its check at event 0, then the pause alone when the check disconnects, and otherwise RPC work, a transmission and a check per packet it sends, and the pause |
| LineEditor.CharOf | pros/src/shell.c:78-79 | the signed `char` conversion gives a value in -128..127 congruent to the input modulo 256 |
| LineEditor.TokenAsWritten | pros/src/shell.c:79-81 | the end-of-input test as written takes both -1 and the data byte 0xFF for end of input; anything else is that byte |
| LineEditor.TokenOf | pros/src/shell.c:79-81 | the intended end-of-input test: only -1 is end of input |
| LineEditor.Tokens | pros/src/shell.c:79 | each `fgetc` result becomes the token the intended test gives it |
| LineEditor.TokensAsWritten | pros/src/shell.c:79 | each `fgetc` result becomes the token the test as written gives it |
| LineEditor.ReadingsDifferOnlyAtFF | pros/src/shell.c:79-81 | the test as written and the intended test read a byte differently exactly when it is 0xFF, so they agree on input without 0xFF |
| LineEditor.StorableIsPrintable | pros/src/shell.c:177-192 | a byte is stored exactly when it is printable ASCII (0x20..0x7E) other than `'!'` |
| LineEditor.Fill | pros/src/shell.c:99-102 | appending to a line in a buffer of `cap` characters keeps the line as a prefix, appends a prefix of the text, stops at `cap`, and appends all of it when it fits |
| LineEditor.Recall | pros/src/shell.c:95-105 | recall appends the history to the line up to the capacity; the history and the escape state are unchanged; the editor stays valid |
| LineEditor.Key | pros/src/shell.c:83-193 | one byte keeps the editor valid and the history unchanged while editing; only CR enters, with the line becoming the history; only CTRL-D ends, with the history unchanged |
| LineEditor.KeyChangesLine | pros/src/shell.c:114-192 | one byte grows the line only by appending a storable byte or by a history recall, shrinks it only by removing the last character at backspace/DEL, and otherwise leaves it unchanged |
| LineEditor.Edit | pros/src/shell.c:77-194 | a read that terminates consumes at least one token and holds at most `cap` storable characters; an entered line becomes the history; an ended read keeps the history |
| LineEditor.EditStopsAtTerminator | pros/src/shell.c:77-194 | a read stops just after its terminator and leaves the rest of the input untouched: CR for an entered line, CTRL-D or end of input for an ended session |
| LineEditor.GetLine | pros/src/shell.c:63-195 | a line never holds more than `size - 1` characters, all storable; CR copies the line into the history; CTRL-D and end of input leave the history alone |
| LineEditor.BackspaceRemovesLast | pros/src/shell.c:121-138 | backspace and DEL remove the last character and do nothing on an empty line |
| LineEditor.StorableAppends | pros/src/shell.c:177-192 | a storable byte is appended while there is room and dropped when the line is full |
| LineEditor.IgnoredBytes | pros/src/shell.c:164-192 | `'!'`, 0xC9, bytes of 0x80 and above, and control bytes without a case of their own (LF, for example) are consumed and change nothing |
| LineEditor.TerminatingKeys | pros/src/shell.c:115-157 | CR enters the line and makes it the history; CTRL-D ends the session with line and history unchanged |
| LineEditor.EscapeRecall | pros/src/shell.c:84-105 | ESC `[` `A` appends the history at the end of the line, cut at the capacity |
| LineEditor.EscapeAbandoned | pros/src/shell.c:84-90 | ESC followed by anything but `[` abandons the escape, and that byte is handled as usual |
| LineEditor.EscapeOtherConsumed | pros/src/shell.c:93-111 | ESC `[` X for X other than `A` consumes X and changes nothing |
| LineEditor.TypedLine | pros/src/shell.c:140-157 | typing storable text then CR enters the text, cut at the capacity, makes it the history, and leaves the following input unread |
| LineEditor.TypedLineRoundTrip | pros/src/shell.c:140-157 | a typed line shorter than `SHELL_MAX_LINE_LENGTH` is entered exactly as typed and becomes the history |
| LineEditor.OverlongLineTruncated | pros/src/shell.c:179-180 | a typed line of `size` or more characters is entered as its first `size - 1` |
| LineEditor.ByteFFEndsSessionAsWritten | pros/src/shell.c:79-81 | as written, the data byte 0xFF in the middle of a line ends the session, losing the line |
| LineEditor.ByteFFConsumed | pros/src/shell.c:79-81 | with the intended test, 0xFF is consumed and the line is entered |
| LineEditor.OnlyEndOfInputOrCtrlDEnds | pros/src/shell.c:79-118 | with the intended test, a read ends the session only at a real end of input (-1) or at CTRL-D |
| Tokenizer.Delimiters | pros/src/shell.c:209-210 | every byte of the delimiter string before its NUL is a delimiter |
| Tokenizer.DelimitersOfCString | pros/src/shell.c:209-210 | the delimiters are exactly the bytes of the delimiter string before its NUL |
| Tokenizer.OnlySpaceDelimits | pros/src/shell.c:248 | the literal `" \009"` delimits at the space only |
| Tokenizer.Span | pros/src/shell.c:209 | `strspn` is the length of the leading run of delimiters |
| Tokenizer.Break | pros/src/shell.c:210 | `strpbrk` is the position of the first delimiter, or the length when there is none |
| Tokenizer.Strtok | pros/src/shell.c:198-215 | with no text the result and the continuation are NULL; a NULL result leaves a NULL continuation; a continuation is strictly shorter than the text |
| Tokenizer.Scan | pros/src/shell.c:209-214 | a NULL token leaves a NULL continuation, and a continuation is strictly shorter than the text |
| Tokenizer.StrtokFindsRun | pros/src/shell.c:198-215 | the result is NULL exactly when only delimiters remain; otherwise it is the maximal non-empty run of non-delimiters after the leading delimiters, and the continuation is NULL at the end of the text or starts just after the delimiter that ends the run |
| Tokenizer.ScanFindsRun | pros/src/shell.c:209-214 | the same characterisation for the work of one call on its text |
| Tokenizer.RemainingAreWords | pros/src/shell.c:253 | the calls with NULL enumerate exactly the words of the remaining text, in order |
| Tokenizer.TokensAreWords | pros/src/shell.c:248-253 | tokenising a line yields exactly its words, in order |
| Tokenizer.TabIsNotADelimiter | pros/src/shell.c:248 | with the shell's literal, `a<TAB>b` is a single token |
| Tokenizer.SpacesSeparateWords | pros/src/shell.c:248-253 | runs of spaces, leading and trailing ones included, only separate words |
| Dispatch.Arguments | pros/src/shell.c:252-261 | the argument loop keeps the arguments it already holds as a prefix and never holds more than four; with no continuation left it stops with what it has |
| Dispatch.ParseLine | pros/src/shell.c:248-261 | a parsed command carries at most four arguments |
| Dispatch.ArgumentsAreRemainingTokens | pros/src/shell.c:252-261 | the argument loop keeps all remaining tokens, unless there are more than four in total, in which case the command is dropped |
| Dispatch.ParseByWords | pros/src/shell.c:248-261 | a line parses into its space-separated words: none is a blank line, more than five is too many, otherwise the first word is the command and the rest its arguments |
| Dispatch.ArgumentLimit | pros/src/shell.c:253-258 | a line of more than five words is refused as too many arguments and runs nothing; one of at most five words is never refused |
| Dispatch.Exec | pros/src/shell.c:301-312 | the lookup finds an entry exactly when some name matches case-insensitively, and then it is the first such entry |
| Dispatch.HelpList | pros/src/shell.c:276-280 | help lists `help` and `exit`, then the local table, then the user table when there is one |
| Dispatch.Decide | pros/src/shell.c:263-285 | blank and too-many lines do nothing else; `exit` matches case-insensitively and exits only without arguments; a run is a case-insensitive match carrying the parsed arguments, and the user table is used only when no local entry matches; an unknown command is exactly one matching no built-in and no table: such a command is always reported unknown, and nothing else is |
| Dispatch.LocalTableFirst | pros/src/shell.c:281 | a local entry shadows a user entry of the same name |
| Dispatch.CaseInsensitiveMatch | pros/src/shell.c:305 | `SysTime` runs the local `systime` |
| Dispatch.RunShell | pros/src/shell.c:241-286 | the session's history stays storable text, and the session has exited exactly when its last action is `exit` |
| Dispatch.ExitIsLast | pros/src/shell.c:263-269 | nothing is done after `exit`: no action other than the last is `exit` |
| Dispatch.SingleWordLine | pros/src/shell.c:248-261 | a line of one word without spaces is that command with no arguments |
| Dispatch.ExitEndsSession | pros/src/shell.c:241-269 | typing `exit` then CR ends the session at once, whatever follows, with `exit` as the history |

## Left out

- Framer and RPC internals (`sfp*`, `rpcRecv`, `rpcLoop`, `message_deserialize`): their source is not part of this model. They are parameters, and the model proves properties for every choice of them.
- `serverSetup` is one-line wiring of the driver handle and of `serverWritePacket` as the RPC layer's write entry point. `serverWritePacket` itself is modelled as the framing step followed by one `serverWrite`.
- The framer's internals are not part of this model: each payload is assumed to become one frame handed to `serverWrite` in one call, and control frames the framer may write on its own are not modelled.
- The RPC layer's record updates are applied before its writes. An update `rpcRecv` or `rpcLoop` makes after a write whose check has reset the session is not modelled.
- Writes inside the task loop use a driver that takes the whole buffer, so each is one transmission. `SerialIo.Write` models the retry loop for any driver on its own.
- The loop's clock is read once per event, as `ServerLoop.Clock` gives it. The RPC layer sees the reading of the event it runs at.
- The `usartInit` line configuration in `serverInit` and `shellInit` is a foreign call. `Session.Init` is the reset alone.
- `shellStart`, `shellThread`, `shellList` output and `cmd_systime` are not modelled. They are task creation, re-running the shell every 50 ms, and printing. `Dispatch.RunShell` models one run of `shellThreadRun`.
- All printed text is left out: prompts, echo, the 50 ms echo buffering, usage messages, "too many arguments" and `<cmd> ?`. `Dispatch.Action` stands for each reply, so the decision is modelled and the text is not.
- The command functions a table entry points to are left out. The model records which entry of which table runs, and with what arguments.
- Real time and concurrency are left out: `taskDelay` and `vexSleep` durations, the 500 ms and 100 ms pauses after 0xC9 and `'!'`, and tasks running side by side. Sleeps are recorded as events. Outside the task loop each operation takes one clock reading, `now`; the passing of time during a sleep is only what the clock readings of later events show.
- `serverThread` runs forever. `ServerLoop.Iterate` models one iteration, and `Session.ThreadStart` models its prologue.
- An `fgetc` that returns EOF while `fcount` still reports buffered bytes is not modelled. The read's input is the queue of buffered bytes.
- Builds where `char` is unsigned are not modelled. The editor assumes the controller's signed `char`.
- SerialIo.Write: a transport that stops accepting is reported as `Stalled` once its given counts run out. The C loop would retry forever instead.
- LineEditor.GetLine: requires `1 <= size <= SHELL_MAX_LINE_LENGTH`. The shell always passes 64. A larger `size` could overrun the 64-byte history buffer, and with `size` 0 the storing bound `line + size - 1` lies before the buffer, so nothing is stored, but the NUL a carriage return stores (pros/src/shell.c:141) lands one past the empty buffer. The C code guards against neither.
- LineEditor.Edit: input that runs out before a terminator leaves the editor `Editing`, where the blocking `fgetc` would wait for more.
- Dispatch.RunShell: the contract states the history invariant and the exit condition only. What each line does is stated by `Dispatch.Decide` and `Dispatch.ParseByWords`.

## Findings

| source | as written | input that shows it | evidently intended | confidence | as-written member | corrected member |
|---|---|---|---|---|---|---|
| pros/src/shell.c:79 | `(char)fgetc(chp) == -1` compares after the conversion to a signed `char`, so the data byte 0xFF reads as end of input | the bytes `a`, 0xFF, CR: the session ends at 0xFF (`shellGetLine` returns true, the shell logs out) and the typed `a` is lost | only `fgetc`'s EOF (-1) ends the input; 0xFF is a non-printable byte to consume, so the line `a` is entered | not executed | LineEditor.ByteFFEndsSessionAsWritten | LineEditor.OnlyEndOfInputOrCtrlDEnds |

=== FILE: common.dfy ===
/**
  Shared vocabulary of the model: fixed-width integers of the C code, an
  optional value for NULL-able pointers and results, and C-string helpers.
 */
module Common {

  /** An `uint8_t`. */
  type u8 = x: int | 0 <= x < 0x100

  /** An `unsigned long` on the 32-bit controller; `millis()` returns one. */
  type u32 = x: int | 0 <= x < 0x1_0000_0000

  const U32Modulus: int := 0x1_0000_0000

  /** A value that may be absent: a NULL pointer or a failed lookup. */
  datatype Option<+T> = None | Some(value: T)

  function Min(a: int, b: int): (m: int)
    ensures m <= a && m <= b
    ensures m == a || m == b
  {
    if a <= b then a else b
  }

  function Max(a: int, b: int): (m: int)
    ensures m >= a && m >= b
    ensures m == a || m == b
  {
    if a <= b then b else a
  }

  /**
    What a C string function sees of a buffer: everything before the first
    NUL byte, or the whole buffer when it holds no NUL.
   */
  function CString(s: seq<u8>): (r: seq<u8>)
    ensures r <= s
    ensures 0 !in r
    ensures |r| < |s| ==> s[|r|] == 0
  {
    if |s| == 0 || s[0] == 0 then [] else [s[0]] + CString(s[1..])
  }

  /** A buffer without a NUL byte is its own C string. */
  lemma {:induction false} CStringOfNulFree(s: seq<u8>)
    requires 0 !in s
    ensures CString(s) == s
  {
    if |s| > 0 {
      assert 0 !in s[1..] by {
        forall i | 0 <= i < |s[1..]| ensures s[1..][i] != 0 {
          assert s[1..][i] == s[i + 1];
        }
      }
      CStringOfNulFree(s[1..]);
      assert [s[0]] + s[1..] == s;
    }
  }
}

=== FILE: dispatch.dfy ===
/**
  The command dispatcher of the shell (pros/src/shell.c): the tokenise and
  dispatch part of `shellThreadRun`, and `shellExec`, which looks a command up
  in a table by case-insensitive name. Command tables are their names; what a
  command does when run is outside the model, which records which entry of
  which table is run and with what arguments.
 */
module Dispatch {
  import opened Common
  import opened LineEditor
  import opened Tokenizer

  /** `SHELL_MAX_ARGUMENTS`. */
  const MaxArguments: nat := 4

  /** A line after tokenising: nothing on it, too many arguments, or a command with its arguments. */
  datatype Parsed = Blank | TooMany | Command(name: seq<u8>, args: seq<seq<u8>>)

  /**
    The argument loop: each further token is an argument, and a token beyond
    the `SHELL_MAX_ARGUMENTS`-th abandons the command (`None`) without reading
    further. `delim` is the delimiter string each call is given.
   */
  function Arguments(save: Option<seq<u8>>, args: seq<seq<u8>>, delim: seq<u8>): (r: Option<seq<seq<u8>>>)
    requires |args| <= MaxArguments
    ensures r.Some? ==> |args| <= |r.value| <= MaxArguments && r.value[..|args|] == args
    ensures save.None? ==> r == Some(args)
    decreases if save.Some? then |save.value| + 1 else 0
  {
    var r := Strtok(None, save, delim);
    if r.token.None? then Some(args)
    else if |args| >= MaxArguments then None
    else
      var more := Arguments(r.save, args + [r.token.value], delim);
      assert more.Some? ==> more.value[..|args|] == (more.value[..|args| + 1])[..|args|];
      more
  }

  /** Tokenising one line: the first token is the command, the rest its arguments. */
  function ParseLine(line: seq<u8>): (p: Parsed)
    ensures p.Command? ==> |p.args| <= MaxArguments
  {
    var first := Strtok(Some(line), None, DelimiterLiteral);
    match Arguments(first.save, [], DelimiterLiteral)
    case None => TooMany
    case Some(args) => if first.token.None? then Blank else Command(first.token.value, args)
  }

  /** At most `SHELL_MAX_ARGUMENTS` arguments are kept; more abandon the command. */
  function Bounded(args: seq<seq<u8>>): Option<seq<seq<u8>>> {
    if |args| > MaxArguments then None else Some(args)
  }

  /** The argument loop keeps all remaining tokens, unless there are more than the limit allows. */
  lemma {:induction false} ArgumentsAreRemainingTokens(save: Option<seq<u8>>, args: seq<seq<u8>>, delim: seq<u8>)
    requires |args| <= MaxArguments
    ensures Arguments(save, args, delim) == Bounded(args + Remaining(save, delim))
    decreases if save.Some? then |save.value| + 1 else 0
  {
    var r := Strtok(None, save, delim);
    if r.token.Some? && |args| < MaxArguments {
      var token := r.token.value;
      var later := Remaining(r.save, delim);
      assert Remaining(save, delim) == [token] + later;
      ArgumentsAreRemainingTokens(r.save, args + [token], delim);
      assert args + [token] + later == args + ([token] + later);
    } else if r.token.None? {
      assert args + [] == args;
    }
  }

  /**
    A line parses into its space-separated words: none is a blank line, more
    than one command and `SHELL_MAX_ARGUMENTS` arguments is too many, otherwise
    the first word is the command and the others its arguments.
   */
  lemma ParseByWords(line: seq<u8>)
    ensures var ws := Words(line, {Space});
      ParseLine(line) ==
        if |ws| == 0 then Blank
        else if |ws| > MaxArguments + 1 then TooMany
        else Command(ws[0], ws[1..])
  {
    OnlySpaceDelimits();
    TokensAreWords(line, DelimiterLiteral);
    var first := Strtok(Some(line), None, DelimiterLiteral);
    ArgumentsAreRemainingTokens(first.save, [], DelimiterLiteral);
    assert [] + Remaining(first.save, DelimiterLiteral) == Remaining(first.save, DelimiterLiteral);
  }

  /** `tolower` on ASCII. */
  function Lower(b: u8): u8 {
    if 0x41 <= b <= 0x5A then b + 0x20 else b
  }

  /** `strcasecmp(a, b) == 0`. */
  predicate SameIgnoringCase(a: seq<u8>, b: seq<u8>) {
    |a| == |b| && forall i | 0 <= i < |a| :: Lower(a[i]) == Lower(b[i])
  }

  /** No entry of `names` matches `name`. */
  predicate Unmatched(names: seq<seq<u8>>, name: seq<u8>) {
    forall j | 0 <= j < |names| :: !SameIgnoringCase(names[j], name)
  }

  /**
    `shellExec`: the index of the entry that is run, which is the first whose
    name matches case-insensitively; `None` (the C function's `true`) when no
    entry matches.
   */
  function Exec(names: seq<seq<u8>>, name: seq<u8>): (r: Option<nat>)
    ensures r.Some? ==> r.value < |names| && SameIgnoringCase(names[r.value], name)
    ensures r.Some? ==> forall j | 0 <= j < r.value :: !SameIgnoringCase(names[j], name)
    ensures r.None? <==> Unmatched(names, name)
  {
    if |names| == 0 then None
    else if SameIgnoringCase(names[0], name) then Some(0)
    else match Exec(names[1..], name)
      case None => None
      case Some(i) => Some(i + 1)
  }

  /** `"systime"`. */
  const SystimeCommand: seq<u8> := [0x73, 0x79, 0x73, 0x74, 0x69, 0x6D, 0x65]
  /** `"exit"`. */
  const ExitCommand: seq<u8> := [0x65, 0x78, 0x69, 0x74]
  /** `"help"`. */
  const HelpCommand: seq<u8> := [0x68, 0x65, 0x6C, 0x70]

  /** The shell's own table, `shellLocalCommands`. */
  const LocalCommands: seq<seq<u8>> := [SystimeCommand]

  datatype Table = Local | User

  /** What the shell does with one entered line. */
  datatype Action =
    | Nothing
    | TooManyArguments
    | Exit
    | ExitUsage
    | HelpUsage
    | Help(names: seq<seq<u8>>)
    | Run(table: Table, index: nat, args: seq<seq<u8>>)
    | Unknown(name: seq<u8>)

  function TableOf(table: Table, user: Option<seq<seq<u8>>>): seq<seq<u8>> {
    match table
    case Local => LocalCommands
    case User => if user.Some? then user.value else []
  }

  /** The command names `help` lists: the built-ins, the local table, then the user table when there is one. */
  function HelpList(user: Option<seq<seq<u8>>>): (names: seq<seq<u8>>)
    ensures |names| >= 2 && names[..2] == [HelpCommand, ExitCommand]
    ensures names[2..] == LocalCommands + TableOf(User, user)
  {
    [HelpCommand, ExitCommand] + LocalCommands + (if user.Some? then user.value else [])
  }

  /**
    The dispatch of one parsed line: `exit` and `help` first, then the local
    table, then the user table (`NULL` when `None`), else an unknown command.
   */
  function Decide(p: Parsed, user: Option<seq<seq<u8>>>): (a: Action)
    ensures a == Nothing <==> p == Blank
    ensures a == TooManyArguments <==> p == TooMany
    ensures a in {Exit, ExitUsage} <==> p.Command? && SameIgnoringCase(p.name, ExitCommand)
    ensures a == Exit ==> p.args == []
    ensures a.Run? ==>
              && p.Command? && a.args == p.args
              && a.index < |TableOf(a.table, user)| && SameIgnoringCase(TableOf(a.table, user)[a.index], p.name)
    ensures a.Run? && a.table == User ==> Unmatched(LocalCommands, p.name)
    ensures p.Command? && SameIgnoringCase(p.name, ExitCommand) ==> a == (if |p.args| > 0 then ExitUsage else Exit)
    ensures p.Command? && !SameIgnoringCase(p.name, ExitCommand) && SameIgnoringCase(p.name, HelpCommand) ==>
              a == (if |p.args| > 0 then HelpUsage else Help(HelpList(user)))
    ensures p.Command? && !SameIgnoringCase(p.name, ExitCommand) && !SameIgnoringCase(p.name, HelpCommand)
            && !Unmatched(LocalCommands, p.name) ==>
              a == Run(Local, Exec(LocalCommands, p.name).value, p.args)
    ensures p.Command? && !SameIgnoringCase(p.name, ExitCommand) && !SameIgnoringCase(p.name, HelpCommand)
            && Unmatched(LocalCommands, p.name) && user.Some? && !Unmatched(user.value, p.name) ==>
              a == Run(User, Exec(user.value, p.name).value, p.args)
    ensures a.Unknown? ==>
              && p.Command? && a == Unknown(p.name)
              && !SameIgnoringCase(p.name, ExitCommand) && !SameIgnoringCase(p.name, HelpCommand)
              && Unmatched(LocalCommands, p.name) && Unmatched(TableOf(User, user), p.name)
    ensures p.Command? && !SameIgnoringCase(p.name, ExitCommand) && !SameIgnoringCase(p.name, HelpCommand)
            && Unmatched(LocalCommands, p.name) && Unmatched(TableOf(User, user), p.name) ==>
              a == Unknown(p.name)
  {
    match p
    case Blank => Nothing
    case TooMany => TooManyArguments
    case Command(name, args) =>
      if SameIgnoringCase(name, ExitCommand) then (if |args| > 0 then ExitUsage else Exit)
      else if SameIgnoringCase(name, HelpCommand) then (if |args| > 0 then HelpUsage else Help(HelpList(user)))
      else match Exec(LocalCommands, name)
        case Some(i) => Run(Local, i, args)
        case None =>
          if user.None? then Unknown(name)
          else match Exec(user.value, name)
            case Some(j) => Run(User, j, args)
            case None => Unknown(name)
  }

  // ---------------------------------------------------------------------------
  // Properties of dispatch

  /** Each local entry shadows a user entry of the same name: the local table is tried first. */
  lemma LocalTableFirst(name: seq<u8>, args: seq<seq<u8>>, user: Option<seq<seq<u8>>>, i: nat)
    requires i < |LocalCommands| && SameIgnoringCase(LocalCommands[i], name)
    requires !SameIgnoringCase(name, ExitCommand) && !SameIgnoringCase(name, HelpCommand)
    ensures Decide(Command(name, args), user) == Run(Local, i, args)
  {
    assert |LocalCommands| == 1;
  }

  /** Matching ignores case: `SysTime` runs the local `systime`. */
  lemma CaseInsensitiveMatch(user: Option<seq<seq<u8>>>)
    ensures Decide(Command([0x53, 0x79, 0x73, 0x54, 0x69, 0x6D, 0x65], []), user) == Run(Local, 0, [])
  {
    var name: seq<u8> := [0x53, 0x79, 0x73, 0x54, 0x69, 0x6D, 0x65];
    assert SameIgnoringCase(LocalCommands[0], name);
    assert Exec(LocalCommands, name) == Some(0);
  }

  /** A line of more than five words runs nothing; one of at most five words is never refused as too long. */
  lemma ArgumentLimit(line: seq<u8>, user: Option<seq<seq<u8>>>)
    ensures |Words(line, {Space})| > MaxArguments + 1 <==> Decide(ParseLine(line), user) == TooManyArguments
    ensures |Words(line, {Space})| > MaxArguments + 1 ==> !Decide(ParseLine(line), user).Run?
  {
    ParseByWords(line);
  }

  // ---------------------------------------------------------------------------
  // A whole shell session

  /** How a session stands once its input is used up. */
  datatype SessionEnd = LoggedOut | Exited | Waiting

  /** What a session did: the action for each entered line, the final history and how it stands. */
  datatype Transcript = Transcript(actions: seq<Action>, history: seq<u8>, status: SessionEnd)

  /** The last action is `Exit`. */
  predicate EndsWithExit(actions: seq<Action>) {
    |actions| > 0 && actions[|actions| - 1] == Exit
  }

  /**
    The loop of `shellThreadRun` over an input stream: read a line of up to
    `SHELL_MAX_LINE_LENGTH` bytes, tokenise it and act on it, until the line
    editor reports the end of input (logout), an `exit` command, or the input
    runs out.
   */
  function RunShell(history: seq<u8>, tokens: seq<Token>, user: Option<seq<seq<u8>>>): (t: Transcript)
    requires Text(history)
    ensures Text(t.history)
    ensures t.status == Exited <==> EndsWithExit(t.actions)
    decreases |tokens|
  {
    var reading := GetLine(history, tokens, MaxLineLength);
    match reading.outcome
    case Editing(_) => Transcript([], history, Waiting)
    case Ended(_, h) => Transcript([], h, LoggedOut)
    case Entered(line, h) =>
      var a := Decide(ParseLine(line), user);
      if a == Exit then Transcript([Exit], h, Exited)
      else
        var more := RunShell(h, reading.rest, user);
        assert EndsWithExit([a] + more.actions) == EndsWithExit(more.actions);
        Transcript([a] + more.actions, more.history, more.status)
  }

  /** No action but the last is `Exit`. */
  predicate ExitOnlyLast(actions: seq<Action>) {
    forall i | 0 <= i < |actions| - 1 :: actions[i] != Exit
  }

  lemma ExitStaysLast(a: Action, later: seq<Action>)
    requires a != Exit && ExitOnlyLast(later)
    ensures ExitOnlyLast([a] + later)
  {
    forall i | 0 <= i < |later| ensures ([a] + later)[i] != Exit {
      if i > 0 {
        assert ([a] + later)[i] == later[i - 1];
      }
    }
  }

  lemma {:induction false} ExitIsLast(history: seq<u8>, tokens: seq<Token>, user: Option<seq<seq<u8>>>)
    requires Text(history)
    ensures ExitOnlyLast(RunShell(history, tokens, user).actions)
    decreases |tokens|
  {
    var t := RunShell(history, tokens, user);
    var reading := GetLine(history, tokens, MaxLineLength);
    match reading.outcome
    case Editing(_) =>
      assert t.actions == [];
    case Ended(_, _) =>
      assert t.actions == [];
    case Entered(line, h) =>
      var a := Decide(ParseLine(line), user);
      if a == Exit {
        assert t.actions == [Exit];
      } else {
        var more := RunShell(h, reading.rest, user);
        assert t.actions == [a] + more.actions;
        ExitIsLast(h, reading.rest, user);
        ExitStaysLast(a, more.actions);
      }
  }

  /** A line of one word is that command with no arguments. */
  lemma SingleWordLine(w: seq<u8>)
    requires |w| > 0 && forall i | 0 <= i < |w| :: w[i] != Space
    ensures ParseLine(w) == Command(w, [])
  {
    ParseByWords(w);
    FieldsAfterRun(w, [], {Space});
    assert w + [] == w;
    assert Fields([], {Space}) == [[]];
    NonEmptyAppend([w], []);
    assert Words(w, {Space}) == [w];
  }

  /** `exit` typed at the prompt ends the session at once, whatever input follows. */
  lemma ExitEndsSession(history: seq<u8>, rest: seq<Token>, user: Option<seq<seq<u8>>>)
    requires Text(history)
    ensures RunShell(history, Typed(ExitCommand) + [Octet(CarriageReturn)] + rest, user)
         == Transcript([Exit], ExitCommand, Exited)
  {
    assert Text(ExitCommand);
    TypedLineRoundTrip(history, ExitCommand, rest);
    SingleWordLine(ExitCommand);
  }
}

=== FILE: line_editor.dfy ===
/**
  The shell's line editor, `shellGetLine` (pros/src/shell.c): a byte-driven
  state machine over a line buffer of `size` bytes with a one-line history,
  backspace, an ESC `[` `A` recall sequence and bytes it consumes without
  storing.

  The editor is a pure function from the stream of `fgetc` results to the
  edited line, the history and whether the session ended. Echo output is not
  modelled; the history copy on CR is, because the echo flag it depends on is
  never cleared.
 */
module LineEditor {
  import opened Common

  /** `SHELL_MAX_LINE_LENGTH`: the size of the history buffer and of the shell's line buffer. */
  const MaxLineLength: nat := 64

  const CtrlD: u8 := 0x04
  const Backspace: u8 := 0x08
  const CarriageReturn: u8 := 0x0D
  const Escape: u8 := 0x1B
  const RobotcStart: u8 := 0x21
  const LeftBracket: u8 := 0x5B
  const CursorUp: u8 := 0x41
  const Delete: u8 := 0x7F
  const VexEscape: u8 := 0xC9

  /** What `fgetc` returns: a byte, or -1 at end of input. */
  type FgetcResult = x: int | -1 <= x < 0x100

  /** One unit of editor input: an explicit end of input, or a byte. */
  datatype Token = EndOfInput | Octet(b: u8)

  /** The `(char)` conversion on the controller, where `char` is signed. */
  function CharOf(x: FgetcResult): (c: int)
    ensures -128 <= c < 128
    ensures c % 0x100 == x % 0x100
  {
    if x < 0x80 then x else x - 0x100
  }

  /**
    The end-of-input test as written, `(char)fgetc(chp) == -1`: besides a real
    end of input it also takes the data byte 0xFF for one.
   */
  function TokenAsWritten(x: FgetcResult): (t: Token)
    ensures t == EndOfInput <==> x == -1 || x == 0xFF
    ensures t != EndOfInput ==> t == Octet(x)
  {
    if CharOf(x) == -1 then EndOfInput else Octet(x)
  }

  /** The end-of-input test as intended: only -1 ends the input. */
  function TokenOf(x: FgetcResult): (t: Token)
    ensures t == EndOfInput <==> x == -1
    ensures x != -1 ==> t == Octet(x)
  {
    if x == -1 then EndOfInput else Octet(x)
  }

  /** The editor's input stream as the corrected end-of-input test reads it. */
  function Tokens(xs: seq<FgetcResult>): (ts: seq<Token>)
    ensures |ts| == |xs|
    ensures forall i | 0 <= i < |xs| :: ts[i] == TokenOf(xs[i])
  {
    seq(|xs|, i requires 0 <= i < |xs| => TokenOf(xs[i]))
  }

  /** The editor's input stream as the code is written. */
  function TokensAsWritten(xs: seq<FgetcResult>): (ts: seq<Token>)
    ensures |ts| == |xs|
    ensures forall i | 0 <= i < |xs| :: ts[i] == TokenAsWritten(xs[i])
  {
    seq(|xs|, i requires 0 <= i < |xs| => TokenAsWritten(xs[i]))
  }

  /**
    The two readings of an input stream differ exactly where the stream holds
    the data byte 0xFF; a stream without one reads the same either way.
   */
  lemma ReadingsDifferOnlyAtFF(xs: seq<FgetcResult>)
    ensures forall i | 0 <= i < |xs| :: TokensAsWritten(xs)[i] != Tokens(xs)[i] <==> xs[i] == 0xFF
    ensures TokensAsWritten(xs) == Tokens(xs) <==> 0xFF !in xs
  {
    if 0xFF in xs {
      var i :| 0 <= i < |xs| && xs[i] == 0xFF;
      assert TokensAsWritten(xs)[i] != Tokens(xs)[i];
    }
  }

  /** The bytes the `default` case stores: `c >= 0x20` with a signed `c`, less those with a case of their own. */
  predicate Storable(b: u8) {
    && b != CtrlD && b != Backspace && b != Delete && b != CarriageReturn
    && b != Escape && b != VexEscape && b != RobotcStart
    && CharOf(b) >= 0x20
  }

  /** A byte is stored exactly when it is printable ASCII other than `'!'`. */
  lemma StorableIsPrintable(b: u8)
    ensures Storable(b) <==> 0x20 <= b < 0x7F && b != RobotcStart
  {
  }

  /** Text the editor can hold: storable bytes only. */
  predicate Text(s: seq<u8>) {
    forall i | 0 <= i < |s| :: Storable(s[i])
  }

  /** Where an escape sequence stands: `escSeq` 0, 1 or 2. */
  datatype EscapeState = Plain | SawEscape | SawBracket

  /** The editor between bytes: the text so far, the escape state and the history buffer. */
  datatype Editor = Editor(line: seq<u8>, escape: EscapeState, history: seq<u8>)

  /** The editor's invariant for a buffer holding `cap` characters (one byte is kept for the NUL). */
  predicate Valid(e: Editor, cap: nat) {
    |e.line| <= cap && Text(e.line) && Text(e.history)
  }

  /** The result of one byte or of a whole read: still editing, a line entered (CR), or the session ended. */
  datatype Outcome =
    | Editing(editor: Editor)
    | Entered(line: seq<u8>, history: seq<u8>)
    | Ended(line: seq<u8>, history: seq<u8>)

  /**
    Appending `s` to `line` in a buffer of `cap` characters: bytes that do not
    fit are dropped.
   */
  function Fill(line: seq<u8>, s: seq<u8>, cap: nat): (r: seq<u8>)
    requires |line| <= cap
    ensures |r| == Min(|line| + |s|, cap)
    ensures line <= r
    ensures r[|line|..] <= s
    ensures |line| + |s| <= cap ==> r == line + s
  {
    line + s[..Min(|s|, cap - |line|)]
  }

  /** ESC `[` `A`: the history text, up to its NUL, is appended at the end of the line. */
  function Recall(e: Editor, cap: nat): (r: Editor)
    requires Valid(e, cap)
    ensures Valid(r, cap)
    ensures r.history == e.history && r.escape == e.escape
    ensures r.line == Fill(e.line, e.history, cap)
  {
    assert 0 !in e.history by {
      forall i | 0 <= i < |e.history| ensures e.history[i] != 0 {
        assert Storable(e.history[i]);
      }
    }
    CStringOfNulFree(e.history);
    var line := Fill(e.line, CString(e.history), cap);
    assert Text(line) by {
      forall i | 0 <= i < |line| ensures Storable(line[i]) {
        if i >= |e.line| {
          assert line[i] == line[|e.line|..][i - |e.line|];
        }
      }
    }
    e.(line := line)
  }

  /** The `switch` on a byte outside an escape sequence. */
  function Plainly(e: Editor, b: u8, cap: nat): (o: Outcome)
    requires Valid(e, cap) && e.escape == Plain
  {
    if b == CtrlD then Ended(e.line, e.history)
    else if b == Backspace || b == Delete then
      Editing(if |e.line| > 0 then e.(line := e.line[..|e.line| - 1]) else e)
    else if b == CarriageReturn then Entered(e.line, e.line)
    else if b == Escape then Editing(e.(escape := SawEscape))
    else if b == VexEscape || b == RobotcStart then Editing(e)
    else if CharOf(b) >= 0x20 && |e.line| < cap then Editing(e.(line := e.line + [b]))
    else Editing(e)
  }

  /** One byte of input. */
  function Key(e: Editor, b: u8, cap: nat): (o: Outcome)
    requires Valid(e, cap)
    ensures o.Editing? ==> Valid(o.editor, cap) && o.editor.history == e.history
    ensures o.Entered? ==> b == CarriageReturn && o.line == e.line && o.history == e.line
    ensures o.Ended? ==> b == CtrlD && o.line == e.line && o.history == e.history
  {
    match e.escape
    case SawEscape =>
      if b == LeftBracket then Editing(e.(escape := SawBracket))
      else Plainly(e.(escape := Plain), b, cap)
    case SawBracket =>
      var plain := e.(escape := Plain);
      Editing(if b == CursorUp then Recall(plain, cap) else plain)
    case Plain => Plainly(e, b, cap)
  }

  /** What a read of the token stream left: the outcome and the tokens it did not consume. */
  datatype Reading = Reading(outcome: Outcome, rest: seq<Token>)

  /**
    The main loop of `shellGetLine`: bytes are fed to the editor until CR,
    CTRL-D or the end of input. A stream that runs out first leaves the
    editor waiting, as the blocking `fgetc` would.
   */
  function Edit(e: Editor, tokens: seq<Token>, cap: nat): (r: Reading)
    requires Valid(e, cap)
    ensures r.outcome.Editing? ==> r.rest == [] && Valid(r.outcome.editor, cap) && r.outcome.editor.history == e.history
    ensures !r.outcome.Editing? ==> |r.rest| < |tokens| && |r.outcome.line| <= cap && Text(r.outcome.line)
    ensures r.outcome.Entered? ==> r.outcome.history == r.outcome.line
    ensures r.outcome.Ended? ==> r.outcome.history == e.history
    decreases |tokens|
  {
    if |tokens| == 0 then Reading(Editing(e), [])
    else match tokens[0]
      case EndOfInput => Reading(Ended(e.line, e.history), tokens[1..])
      case Octet(b) =>
        match Key(e, b, cap)
        case Editing(next) => Edit(next, tokens[1..], cap)
        case other => Reading(other, tokens[1..])
  }

  /**
    A read stops just after its terminator and leaves the rest of the input
    untouched: a line is entered only by CR, and the session ends only at
    CTRL-D or the end of input.
   */
  lemma {:induction false} EditStopsAtTerminator(e: Editor, tokens: seq<Token>, cap: nat)
    requires Valid(e, cap)
    ensures var r := Edit(e, tokens, cap);
      && |r.rest| <= |tokens| && r.rest == tokens[|tokens| - |r.rest|..]
      && (r.outcome.Entered? ==> tokens[|tokens| - |r.rest| - 1] == Octet(CarriageReturn))
      && (r.outcome.Ended? ==> tokens[|tokens| - |r.rest| - 1] in {EndOfInput, Octet(CtrlD)})
    decreases |tokens|
  {
    if |tokens| > 0 && tokens[0].Octet? {
      var o := Key(e, tokens[0].b, cap);
      if o.Editing? {
        EditStopsAtTerminator(o.editor, tokens[1..], cap);
        var r := Edit(o.editor, tokens[1..], cap);
        assert tokens[1..][|tokens[1..]| - |r.rest|..] == tokens[|tokens| - |r.rest|..];
      }
    }
  }

  /**
    How one byte changes the line: it grows only by a stored byte or by a
    history recall, and shrinks only by one character at a backspace.
   */
  lemma KeyChangesLine(e: Editor, b: u8, cap: nat)
    requires Valid(e, cap)
    ensures var o := Key(e, b, cap);
      && (o.Editing? && |o.editor.line| > |e.line| ==>
            || (o.editor.line == e.line + [b] && Storable(b) && e.escape != SawBracket)
            || (o.editor.line == Fill(e.line, e.history, cap) && e.escape == SawBracket && b == CursorUp))
      && (o.Editing? && |o.editor.line| < |e.line| ==>
            o.editor.line == e.line[..|e.line| - 1] && (b == Backspace || b == Delete) && e.escape != SawBracket)
      && (o.Editing? && |o.editor.line| == |e.line| ==> o.editor.line == e.line)
  {
  }

  /**
    `shellGetLine` on a buffer of `size` bytes: editing starts from an empty
    line outside any escape sequence, with the history left by the previous
    line. The history buffer holds `SHELL_MAX_LINE_LENGTH` bytes, so a larger
    `size` could overrun it. A `size` of 0 puts the storing bound
    `line + size - 1` before the buffer, so nothing is stored, but the NUL a
    carriage return stores would land one past the empty buffer.
   */
  function GetLine(history: seq<u8>, tokens: seq<Token>, size: nat): (r: Reading)
    requires 1 <= size <= MaxLineLength && Text(history)
    ensures !r.outcome.Editing? ==> |r.outcome.line| < size && Text(r.outcome.line)
    ensures r.outcome.Entered? ==> r.outcome.history == r.outcome.line
    ensures r.outcome.Ended? ==> r.outcome.history == history
    ensures r.outcome.Editing? ==> r.rest == []
    ensures !r.outcome.Editing? ==> |r.rest| < |tokens|
  {
    Edit(Editor([], Plain, history), tokens, size - 1)
  }

  // ---------------------------------------------------------------------------
  // Properties of single keys

  /** Backspace and DEL remove the last character; on an empty line they do nothing. */
  lemma BackspaceRemovesLast(e: Editor, b: u8, cap: nat)
    requires Valid(e, cap) && e.escape == Plain && (b == Backspace || b == Delete)
    ensures |e.line| > 0 ==> Key(e, b, cap) == Editing(e.(line := e.line[..|e.line| - 1]))
    ensures |e.line| == 0 ==> Key(e, b, cap) == Editing(e)
  {
  }

  /** A storable byte is appended while there is room and dropped once the line is full. */
  lemma StorableAppends(e: Editor, b: u8, cap: nat)
    requires Valid(e, cap) && e.escape == Plain && Storable(b)
    ensures |e.line| < cap ==> Key(e, b, cap) == Editing(e.(line := e.line + [b]))
    ensures |e.line| == cap ==> Key(e, b, cap) == Editing(e)
  {
  }

  /** `'!'`, 0xC9 and every control byte without a case of its own are consumed and not stored. */
  lemma IgnoredBytes(e: Editor, b: u8, cap: nat)
    requires Valid(e, cap) && e.escape == Plain
    requires b == RobotcStart || b == VexEscape || b >= 0x80 ||
             (b < 0x20 && b !in {CtrlD, Backspace, CarriageReturn, Escape})
    ensures Key(e, b, cap) == Editing(e)
  {
  }

  /** CR ends the line and copies it into the history; CTRL-D ends the session leaving the history alone. */
  lemma TerminatingKeys(e: Editor, cap: nat)
    requires Valid(e, cap) && e.escape == Plain
    ensures Key(e, CarriageReturn, cap) == Entered(e.line, e.line)
    ensures Key(e, CtrlD, cap) == Ended(e.line, e.history)
  {
  }

  /** ESC `[` `A` appends the history, cut at the buffer's capacity. */
  lemma EscapeRecall(e: Editor, cap: nat)
    requires Valid(e, cap) && e.escape == Plain
    ensures Key(e, Escape, cap) == Editing(e.(escape := SawEscape))
    ensures Key(e.(escape := SawEscape), LeftBracket, cap) == Editing(e.(escape := SawBracket))
    ensures Key(e.(escape := SawBracket), CursorUp, cap) == Editing(e.(line := Fill(e.line, e.history, cap)))
  {
  }

  /** ESC followed by anything but `[` abandons the escape; that byte is handled as usual. */
  lemma EscapeAbandoned(e: Editor, b: u8, cap: nat)
    requires Valid(e, cap) && e.escape == Plain && b != LeftBracket
    ensures Key(e.(escape := SawEscape), b, cap) == Key(e, b, cap)
  {
  }

  /** ESC `[` X for X other than `A` consumes X and changes nothing else. */
  lemma EscapeOtherConsumed(e: Editor, b: u8, cap: nat)
    requires Valid(e, cap) && e.escape == Plain && b != CursorUp
    ensures Key(e.(escape := SawBracket), b, cap) == Editing(e)
  {
  }

  // ---------------------------------------------------------------------------
  // Properties of whole lines

  /** The tokens of typed bytes. */
  function Typed(s: seq<u8>): (ts: seq<Token>)
    ensures |ts| == |s|
    ensures forall i | 0 <= i < |s| :: ts[i] == Octet(s[i])
  {
    seq(|s|, i requires 0 <= i < |s| => Octet(s[i]))
  }

  /**
    Typing text and then CR enters the text, cut at the buffer's capacity,
    makes it the history and leaves the rest of the input unread.
   */
  lemma {:induction false} TypedLine(e: Editor, s: seq<u8>, rest: seq<Token>, cap: nat)
    requires Valid(e, cap) && e.escape == Plain && Text(s)
    ensures var line := Fill(e.line, s, cap);
      Edit(e, Typed(s) + [Octet(CarriageReturn)] + rest, cap) == Reading(Entered(line, line), rest)
    decreases |s|
  {
    var input := Typed(s) + [Octet(CarriageReturn)] + rest;
    if |s| == 0 {
      assert input == [Octet(CarriageReturn)] + rest;
      assert input[1..] == rest;
    } else {
      assert input[0] == Octet(s[0]);
      assert input[1..] == Typed(s[1..]) + [Octet(CarriageReturn)] + rest;
      assert Storable(s[0]);
      var next := if |e.line| < cap then e.(line := e.line + [s[0]]) else e;
      assert Key(e, s[0], cap) == Editing(next);
      assert Text(s[1..]) by {
        forall i | 0 <= i < |s[1..]| ensures Storable(s[1..][i]) {
          assert s[1..][i] == s[i + 1];
        }
      }
      TypedLine(next, s[1..], rest, cap);
      FillStep(e.line, s, cap);
    }
  }

  /** Filling one byte at a time fills the same text. */
  lemma FillStep(line: seq<u8>, s: seq<u8>, cap: nat)
    requires |line| <= cap && |s| > 0
    ensures |line| < cap ==> Fill(line + [s[0]], s[1..], cap) == Fill(line, s, cap)
    ensures |line| == cap ==> Fill(line, s[1..], cap) == Fill(line, s, cap)
  {
    if |line| < cap {
      var k := Min(|s|, cap - |line|);
      assert s[1..][..k - 1] == s[1..k];
      assert [s[0]] + s[1..k] == s[..k];
      assert line + [s[0]] + s[1..k] == line + ([s[0]] + s[1..k]);
    }
  }

  /** A typed line of storable text that fits is entered exactly as typed. */
  lemma TypedLineRoundTrip(history: seq<u8>, s: seq<u8>, rest: seq<Token>)
    requires Text(history) && Text(s) && |s| < MaxLineLength
    ensures GetLine(history, Typed(s) + [Octet(CarriageReturn)] + rest, MaxLineLength) == Reading(Entered(s, s), rest)
  {
    TypedLine(Editor([], Plain, history), s, rest, MaxLineLength - 1);
    assert [] + s == s;
  }

  /** A typed line longer than the buffer is cut to its first `size - 1` characters. */
  lemma OverlongLineTruncated(history: seq<u8>, s: seq<u8>, rest: seq<Token>, size: nat)
    requires 1 <= size <= MaxLineLength && Text(history) && Text(s) && |s| >= size
    ensures GetLine(history, Typed(s) + [Octet(CarriageReturn)] + rest, size) == Reading(Entered(s[..size - 1], s[..size - 1]), rest)
  {
    TypedLine(Editor([], Plain, history), s, rest, size - 1);
    assert [] + s[..size - 1] == s[..size - 1];
  }

  /**
    The data byte 0xFF as written: it ends the session in the middle of a
    line, taking the text typed so far with it.
   */
  lemma ByteFFEndsSessionAsWritten()
    ensures GetLine([], TokensAsWritten([0x61, 0xFF, 0x0D]), MaxLineLength) == Reading(Ended([0x61], []), [Octet(0x0D)])
  {
    var input := TokensAsWritten([0x61, 0xFF, 0x0D]);
    assert input == [Octet(0x61), EndOfInput, Octet(0x0D)];
    var e1 := Editor([0x61], Plain, []);
    assert Key(Editor([], Plain, []), 0x61, MaxLineLength - 1) == Editing(e1);
    assert input[1..] == [EndOfInput, Octet(0x0D)];
    assert Edit(e1, input[1..], MaxLineLength - 1) == Reading(Ended([0x61], []), [Octet(0x0D)]);
  }

  /**
    The data byte 0xFF as intended: it is consumed like any other
    non-printable byte and the line is entered.
   */
  lemma ByteFFConsumed()
    ensures GetLine([], Tokens([0x61, 0xFF, 0x0D]), MaxLineLength) == Reading(Entered([0x61], [0x61]), [])
  {
    var input := Tokens([0x61, 0xFF, 0x0D]);
    assert input == [Octet(0x61), Octet(0xFF), Octet(0x0D)];
    var e1 := Editor([0x61], Plain, []);
    assert Key(Editor([], Plain, []), 0x61, MaxLineLength - 1) == Editing(e1);
    assert Key(e1, 0xFF, MaxLineLength - 1) == Editing(e1);
    assert input[1..][1..] == [Octet(0x0D)];
    assert Edit(e1, [Octet(0x0D)], MaxLineLength - 1) == Reading(Entered([0x61], [0x61]), []);
  }

  /**
    With the intended end-of-input test, a read ends the session only at a
    real end of input or at CTRL-D: no data byte, 0xFF included, ends it.
   */
  lemma {:induction false} OnlyEndOfInputOrCtrlDEnds(history: seq<u8>, xs: seq<FgetcResult>, size: nat)
    requires 1 <= size <= MaxLineLength && Text(history)
    ensures var r := GetLine(history, Tokens(xs), size);
      r.outcome.Ended? ==> |r.rest| < |xs| && xs[|xs| - |r.rest| - 1] in {-1, CtrlD as int}
  {
    var ts := Tokens(xs);
    EditStopsAtTerminator(Editor([], Plain, history), ts, size - 1);
    var r := GetLine(history, ts, size);
    if r.outcome.Ended? {
      var j := |xs| - |r.rest| - 1;
      assert ts[j] == TokenOf(xs[j]);
    }
  }
}

=== FILE: serial_io.dfy ===
/**
  The transport side of the server (pros/src/server.c): the non-blocking
  read and write primitives over the serial driver, and `serverWrite`, the
  write callback the framer uses to emit an encoded packet, which retries with
  a pacing delay until the whole buffer has been accepted.

  The serial driver's input is the queue of bytes it has buffered; its output
  side is described by how many bytes it accepts on each successive write
  attempt.
 */
module SerialIo {
  import opened Common
  import opened Session

  /**
    `sdAsynchronousRead`: take bytes from the driver's buffer while the caller
    still has room and the driver still reports buffered bytes (`fcount`).
   */
  method AsynchronousRead(pending: seq<u8>, len: nat) returns (got: seq<u8>, rest: seq<u8>)
    ensures |got| <= len
    ensures |got| == Min(len, |pending|)
    ensures got + rest == pending
    ensures len == 0 || |pending| == 0 ==> got == []
  {
    got := [];
    rest := pending;
    var room := len;
    while true
      invariant got + rest == pending
      invariant 0 <= room && room + |got| == len
      decreases |rest|
    {
      if room == 0 || |rest| == 0 {
        return;
      }
      got := got + [rest[0]];
      rest := rest[1..];
      room := room - 1;
    }
  }

  /** `sdAsynchronousWrite`: puts every one of the `len` bytes to the driver, one at a time. */
  method AsynchronousWrite(buf: seq<u8>, len: nat) returns (wlen: nat, sent: seq<u8>)
    requires len <= |buf|
    ensures wlen == len
    ensures sent == buf[..len]
  {
    wlen := 0;
    sent := [];
    var left := len;
    while left > 0
      invariant wlen + left == len
      invariant sent == buf[..wlen]
    {
      sent := sent + [buf[wlen]];
      left := left - 1;
      wlen := wlen + 1;
    }
  }

  // ---------------------------------------------------------------------------
  // The retrying write

  /** How many bytes the transport takes on attempt `i`; none once the given counts run out. */
  function Offer(accepts: seq<nat>, i: nat): nat {
    if i < |accepts| then accepts[i] else 0
  }

  function Sum(xs: seq<nat>): nat {
    if |xs| == 0 then 0 else xs[0] + Sum(xs[1..])
  }

  lemma {:induction false} SumAppend(xs: seq<nat>, ys: seq<nat>)
    ensures Sum(xs + ys) == Sum(xs) + Sum(ys)
  {
    if |xs| > 0 {
      assert (xs + ys)[1..] == xs[1..] + ys;
      SumAppend(xs[1..], ys);
    } else {
      assert xs + ys == ys;
    }
  }

  /**
    The sizes of the successive write attempts for `n` bytes: the first attempt
    always happens; another follows while bytes remain and the transport still
    has accept counts to give. When the counts run out with bytes left, every
    further attempt would take nothing and `serverWrite` would never return.
   */
  function Attempts(n: nat, accepts: seq<nat>): (sizes: seq<nat>)
    ensures 1 <= |sizes|
    decreases |accepts|
  {
    var w := Min(Offer(accepts, 0), n);
    if w == n || |accepts| <= 1 then [w] else [w] + Attempts(n - w, accepts[1..])
  }

  function Flatten<T>(chunks: seq<seq<T>>): seq<T> {
    if |chunks| == 0 then [] else Flatten(chunks[..|chunks| - 1]) + chunks[|chunks| - 1]
  }

  function Sizes<T>(chunks: seq<seq<T>>): (sizes: seq<nat>)
    ensures |sizes| == |chunks|
    ensures forall i | 0 <= i < |chunks| :: sizes[i] == |chunks[i]|
  {
    seq(|chunks|, i requires 0 <= i < |chunks| => |chunks[i]|)
  }

  /**
    The events of the attempts that accepted `chunks`: each accepted chunk,
    with one pacing delay between consecutive attempts.
   */
  function Paced(chunks: seq<seq<u8>>): (t: seq<Event>)
    requires |chunks| >= 1
    ensures |t| == 2 * |chunks| - 1
    ensures forall i | 0 <= i < |t| && i % 2 == 0 :: t[i] == Transmit(chunks[i / 2])
    ensures forall i | 0 <= i < |t| && i % 2 == 1 :: t[i] == Sleep(PaceMillis)
    decreases |chunks|
  {
    if |chunks| == 1 then [Transmit(chunks[0])]
    else
      var earlier := chunks[..|chunks| - 1];
      var t := Paced(earlier);
      assert forall i | 0 <= i < |earlier| :: earlier[i] == chunks[i];
      t + [Sleep(PaceMillis), Transmit(chunks[|chunks| - 1])]
  }

  /**
    What `serverWrite` has done: either it returned, after a connection check,
    or it is still retrying against a transport that accepts nothing more.
    `chunks` are the pieces the transport accepted, one per attempt, and
    `trace` the transmissions and pacing delays in order.
   */
  datatype WriteResult<F> =
    | Completed(chunks: seq<seq<u8>>, trace: seq<Event>, status: int, outlen: Option<nat>, server: Server<F>)
    | Stalled(chunks: seq<seq<u8>>, trace: seq<Event>)

  /**
    The retry loop of `serverWrite`: offer the buffer to the transport; while
    bytes remain, pause one pacing interval and offer the remaining tail.
    `done` is false when the transport's accept counts ran out first.
   */
  method Transfer(octets: seq<u8>, accepts: seq<nat>) returns (chunks: seq<seq<u8>>, sleeps: nat, done: bool)
    ensures Sizes(chunks) == Attempts(|octets|, accepts)
    ensures Sum(Sizes(chunks)) <= |octets|
    ensures Flatten(chunks) == octets[..Sum(Sizes(chunks))]
    ensures sleeps == |chunks| - 1
    ensures done <==> Sum(Sizes(chunks)) == |octets|
  {
    var len: nat := |octets|;
    var sent: nat := Min(Offer(accepts, 0), len);
    chunks := [octets[..sent]];
    sleeps := 0;
    len := len - sent;
    var i := 1;
    FlattenAppend(octets, [], 0, sent);
    assert [] + [octets[0..sent]] == chunks;
    while len > 0
      invariant 1 <= i && |chunks| == i && sleeps == i - 1
      invariant Progress(octets, accepts, chunks, sent, len, i)
      decreases |accepts| - i
    {
      if i >= |accepts| {
        done := false;
        return;
      }
      sleeps := sleeps + 1;
      var wlen: nat := Min(accepts[i], len);
      var chunks', sent', len' := chunks + [octets[sent..sent + wlen]], sent + wlen, len - wlen;
      WriteStep(octets, accepts, chunks, sent, len, i, chunks', sent', len');
      chunks, sent, len, i := chunks', sent', len', i + 1;
    }
    done := true;
  }

  /**
    `serverWrite`: the retry loop, then, once everything has been accepted,
    the count reported through `outlen` (when the caller passed one), a
    connection check, and the status 0.
   */
  method Write<F>(s: Server<F>, fm: Framer<F>, octets: seq<u8>, accepts: seq<nat>, wantOutlen: bool, now: u32)
    returns (w: WriteResult<F>)
    ensures Sizes(w.chunks) == Attempts(|octets|, accepts)
    ensures w.Completed? ==> w.trace == Paced(w.chunks) + [Check]
    ensures w.Stalled? ==> w.trace == Paced(w.chunks)
    ensures w.Completed? <==> Sum(Attempts(|octets|, accepts)) == |octets|
    ensures w.Completed? ==> Flatten(w.chunks) == octets
    ensures w.Stalled? ==> Flatten(w.chunks) < octets
    ensures w.Completed? ==> w.status == 0
    ensures w.Completed? ==> w.outlen == (if wantOutlen then Some(|octets|) else None)
    ensures w.Completed? ==> w.server == CheckConnection(s, fm, now)
  {
    var chunks, sleeps, done := Transfer(octets, accepts);
    if done {
      w := Completed(chunks, Paced(chunks) + [Check], 0, if wantOutlen then Some(Sum(Sizes(chunks))) else None,
        CheckConnection(s, fm, now));
    } else {
      w := Stalled(chunks, Paced(chunks));
    }
  }

  /**
    What the retry loop of `Transfer` knows after `i` attempts: `sent` bytes
    have gone, in order, `len` remain, and the attempts made so far are the
    start of the plan `Attempts` (all of it once nothing remains or the
    transport's counts are used up).
   */
  predicate Progress(octets: seq<u8>, accepts: seq<nat>, chunks: seq<seq<u8>>, sent: nat, len: nat, i: nat) {
    && sent + len == |octets|
    && Flatten(chunks) == octets[..sent]
    && Sum(Sizes(chunks)) == sent
    && (len > 0 && i < |accepts| ==> Attempts(|octets|, accepts) == Sizes(chunks) + Attempts(len, accepts[i..]))
    && (len == 0 || i >= |accepts| ==> Attempts(|octets|, accepts) == Sizes(chunks))
  }

  /** The progress of `Transfer` survives one more attempt. */
  lemma WriteStep(octets: seq<u8>, accepts: seq<nat>, chunks: seq<seq<u8>>, sent: nat, len: nat, i: nat,
                  chunks': seq<seq<u8>>, sent': nat, len': nat)
    requires 0 < len && 1 <= i < |accepts|
    requires Progress(octets, accepts, chunks, sent, len, i)
    requires sent' == sent + Min(accepts[i], len) && len' == len - Min(accepts[i], len)
    requires chunks' == chunks + [octets[sent..sent']]
    ensures Progress(octets, accepts, chunks', sent', len', i + 1)
  {
    var wlen := Min(accepts[i], len);
    var chunk := octets[sent..sent + wlen];
    FlattenAppend(octets, chunks, sent, wlen);
    SizesAppend(chunks, chunk);
    SumAppend(Sizes(chunks), [wlen]);
    AttemptStep(len, accepts, i);
    if len - wlen > 0 && i + 1 < |accepts| {
      Regroup(Attempts(|octets|, accepts), Sizes(chunks), Attempts(len, accepts[i..]),
        Attempts(len - wlen, accepts[i + 1..]), wlen);
    } else {
      Regroup(Attempts(|octets|, accepts), Sizes(chunks), Attempts(len, accepts[i..]), [], wlen);
    }
  }

  lemma Regroup(all: seq<nat>, done: seq<nat>, plan: seq<nat>, later: seq<nat>, w: nat)
    requires all == done + plan && plan == [w] + later
    ensures all == (done + [w]) + later
  {
    assert done + ([w] + later) == (done + [w]) + later;
  }

  lemma FlattenAppend<T>(octets: seq<T>, chunks: seq<seq<T>>, sent: nat, wlen: nat)
    requires sent + wlen <= |octets|
    requires Flatten(chunks) == octets[..sent]
    ensures Flatten(chunks + [octets[sent..sent + wlen]]) == octets[..sent + wlen]
  {
    var chunks' := chunks + [octets[sent..sent + wlen]];
    assert chunks'[..|chunks|] == chunks;
    assert octets[..sent] + octets[sent..sent + wlen] == octets[..sent + wlen];
  }

  lemma SizesAppend<T>(chunks: seq<seq<T>>, chunk: seq<T>)
    ensures Sizes(chunks + [chunk]) == Sizes(chunks) + [|chunk|]
  {
  }

  /** One more attempt of the write: how the remaining plan unfolds. */
  lemma AttemptStep(len: nat, accepts: seq<nat>, i: nat)
    requires len > 0 && i < |accepts|
    ensures var wlen := Min(accepts[i], len);
      && (wlen == len || i + 1 >= |accepts| ==> Attempts(len, accepts[i..]) == [wlen])
      && (wlen < len && i + 1 < |accepts| ==>
            Attempts(len, accepts[i..]) == [wlen] + Attempts(len - wlen, accepts[i + 1..]))
  {
    assert accepts[i..][1..] == accepts[i + 1..];
  }

  // ---------------------------------------------------------------------------
  // Properties of the write plan

  /** `n` copies of `k`: a transport that accepts `k` bytes on each of `n` attempts. */
  function Repeat(k: nat, n: nat): (r: seq<nat>)
    ensures |r| == n
    ensures forall i | 0 <= i < n :: r[i] == k
  {
    seq(n, _ => k)
  }

  /**
    Against a transport that takes `k > 0` bytes per call, a buffer of `n > 0`
    bytes is written completely in ceil(n / k) attempts: the least count `c`
    with `n <= c * k`. An empty buffer takes the one unconditional attempt.
   */
  lemma {:induction false} ConstantTransport(n: nat, k: nat, m: nat)
    requires k > 0 && m >= 1 && m * k >= n
    ensures Sum(Attempts(n, Repeat(k, m))) == n
    ensures n <= |Attempts(n, Repeat(k, m))| * k
    ensures n > 0 ==> (|Attempts(n, Repeat(k, m))| - 1) * k < n
    ensures n == 0 ==> |Attempts(n, Repeat(k, m))| == 1
    decreases n
  {
    var acc := Repeat(k, m);
    if n <= k {
      assert Attempts(n, acc) == [n];
    } else {
      assert (m - 1) * k == m * k - k;
      assert (m - 1) * k > 0;
      assert acc[1..] == Repeat(k, m - 1);
      ConstantTransport(n - k, k, m - 1);
      var tail := Attempts(n - k, acc[1..]);
      var c := |tail|;
      assert Attempts(n, acc) == [k] + tail;
      SumAppend([k], tail);
      assert (c + 1) * k == c * k + k;
      assert (c - 1) * k == c * k - k;
    }
  }

  /** The reference case: 100 bytes through a transport that takes 10 per call need 10 attempts and 9 pauses. */
  lemma HundredBytesTenAtATime()
    ensures Sum(Attempts(100, Repeat(10, 10))) == 100
    ensures |Attempts(100, Repeat(10, 10))| == 10
  {
    ConstantTransport(100, 10, 10);
  }

  /**
    The driver as written accepts the whole buffer on the first call, so
    `serverWrite` makes a single attempt and never pauses.
   */
  lemma {:induction false} WholeBufferDriver(n: nat, accepts: seq<nat>)
    requires |accepts| > 0 && accepts[0] >= n
    ensures Attempts(n, accepts) == [n]
  {
  }

  /**
    Every attempt takes at most what the transport offers on it, the attempts
    together never take more than the buffer, and the attempts stop before the
    transport's counts run out only when the whole buffer has gone.
   */
  lemma {:induction false} AttemptsShape(n: nat, accepts: seq<nat>)
    ensures var sizes := Attempts(n, accepts);
      && |sizes| <= Max(1, |accepts|)
      && Sum(sizes) <= n
      && (forall i | 0 <= i < |sizes| :: sizes[i] <= Offer(accepts, i))
      && (Sum(sizes) == n || |sizes| == Max(1, |accepts|))
    decreases |accepts|
  {
    var w := Min(Offer(accepts, 0), n);
    if w != n && |accepts| > 1 {
      var tail := Attempts(n - w, accepts[1..]);
      AttemptsShape(n - w, accepts[1..]);
      SumAppend([w], tail);
      assert Attempts(n, accepts) == [w] + tail;
      forall i | 1 <= i < |tail| + 1
        ensures ([w] + tail)[i] <= Offer(accepts, i)
      {
        assert Offer(accepts[1..], i - 1) == Offer(accepts, i);
      }
    }
  }

  /** The attempts take everything the transport offers, up to the size of the buffer. */
  lemma {:induction false} AttemptsTotal(n: nat, accepts: seq<nat>)
    requires |accepts| > 0
    ensures Sum(Attempts(n, accepts)) == Min(n, Sum(accepts))
    decreases |accepts|
  {
    var w := Min(accepts[0], n);
    if |accepts| == 1 {
      assert accepts[1..] == [];
      assert Sum(accepts) == accepts[0];
    } else if w == n {
      assert Sum(accepts) >= accepts[0];
    } else {
      AttemptsTotal(n - w, accepts[1..]);
      SumAppend([w], Attempts(n - w, accepts[1..]));
    }
  }

  /**
    A write that does not complete is one whose transport offered, in total,
    less than the buffer: every offer was used up and no further attempt is made.
   */
  lemma StalledMeansTransportExhausted(n: nat, accepts: seq<nat>)
    requires Sum(Attempts(n, accepts)) < n
    ensures |Attempts(n, accepts)| == Max(1, |accepts|)
    ensures Sum(accepts) < n
  {
    AttemptsShape(n, accepts);
    if |accepts| > 0 {
      AttemptsTotal(n, accepts);
    }
  }
}

=== FILE: server_loop.dfy ===
/**
  The receive side and the task loop of the server (pros/src/server.c):
  `serverRead`, the delivery callback the framer calls with a reassembled
  packet; `serverWritePacket`, through which the RPC layer sends; and one
  iteration of `serverThread`, which reads what the transport has buffered,
  hands it to the framer byte by byte, checks the connection, runs one unit
  of RPC work while connected and paces itself.

  The RPC layer is a parameter: message deserialisation, `rpcRecv` and
  `rpcLoop` over the part of the RPC record the session manager sees, each
  returning the payloads it sends. Every packet sent goes through the framer
  and `serverWrite`, whose closing connection check can reset the session.
 */
module ServerLoop {
  import opened Common
  import opened Session
  import opened SerialIo

  /**
    The RPC layer as the session manager uses it. `recv` and `tick` return the
    updated record and the payloads they hand to `writePacket`, in order.
   */
  datatype RpcLayer<!M> = RpcLayer(
    deserialize: seq<u8> -> Option<M>,
    recv: (Rpc, M, u32) -> (Rpc, seq<seq<u8>>),
    tick: (Rpc, u32) -> (Rpc, seq<seq<u8>>))

  /**
    The clock during an iteration: `clock(k)` is what `chTimeNow()` reads when
    the iteration's event number `k` (counting from 0) happens.
   */
  type Clock = nat -> u32

  /** A session after some work, with the events that work produced, in order. */
  datatype Outcome<F> = Outcome(server: Server<F>, trace: seq<Event>)

  /** The input bytes handed to the framer, in the order the trace records them. */
  function Octets(trace: seq<Event>): seq<u8> {
    if |trace| == 0 then []
    else (if trace[0].Octet? then [trace[0].b] else []) + Octets(trace[1..])
  }

  lemma {:induction false} OctetsAppend(a: seq<Event>, b: seq<Event>)
    ensures Octets(a + b) == Octets(a) + Octets(b)
  {
    if |a| == 0 {
      assert a + b == b;
    } else {
      assert (a + b)[1..] == a[1..] + b;
      OctetsAppend(a[1..], b);
    }
  }

  /** A trace without input bytes hands nothing to the framer. */
  lemma {:induction false} NoOctets(trace: seq<Event>)
    requires forall i | 0 <= i < |trace| :: !trace[i].Octet?
    ensures Octets(trace) == []
  {
    if |trace| > 0 {
      assert forall i | 0 <= i < |trace[1..]| :: trace[1..][i] == trace[i + 1];
      NoOctets(trace[1..]);
    }
  }

  /** The events of successive packet writes: each transmission followed by its connection check. */
  predicate WriteEvents(trace: seq<Event>)
    decreases |trace|
  {
    || |trace| == 0
    || (|trace| >= 2 && trace[0].Transmit? && trace[1] == Check && WriteEvents(trace[2..]))
  }

  /** Events that byte delivery produces: octets, packets, the replies they cause and the checks. */
  predicate DeliveryOnly(trace: seq<Event>)
    decreases |trace|
  {
    || |trace| == 0
    || ((trace[0].Octet? || trace[0].Packet? || trace[0].Check? || trace[0].Transmit?) && DeliveryOnly(trace[1..]))
  }

  lemma {:induction false} DeliveryOnlyAppend(a: seq<Event>, b: seq<Event>)
    requires DeliveryOnly(a) && DeliveryOnly(b)
    ensures DeliveryOnly(a + b)
    decreases |a|
  {
    if |a| == 0 {
      assert a + b == b;
    } else {
      assert (a + b)[1..] == a[1..] + b;
      DeliveryOnlyAppend(a[1..], b);
    }
  }

  /** Writes are among the events delivery may produce, and hand nothing to the framer. */
  lemma {:induction false} WritesAreDelivery(trace: seq<Event>)
    requires WriteEvents(trace)
    ensures DeliveryOnly(trace) && Octets(trace) == []
    decreases |trace|
  {
    if |trace| > 0 {
      WritesAreDelivery(trace[2..]);
      assert trace[1..][1..] == trace[2..];
    }
  }

  /** Delivery never runs the periodic RPC work. */
  lemma {:induction false} DeliveryIsNotRpcWork(trace: seq<Event>)
    requires DeliveryOnly(trace)
    ensures RpcLoop !in trace
    decreases |trace|
  {
    if |trace| > 0 {
      DeliveryIsNotRpcWork(trace[1..]);
      assert trace == [trace[0]] + trace[1..];
    }
  }

  // ---------------------------------------------------------------------------
  // Folds

  /**
    Runs `step` over `xs` from event `pos` on, threading the session: each
    element's events are numbered on from where the previous element's ended.
   */
  function Fold<F, T>(step: (Server<F>, T, nat) -> Outcome<F>, s: Server<F>, xs: seq<T>, pos: nat): Outcome<F>
    decreases |xs|, 1
  {
    if |xs| == 0 then Outcome(s, []) else FoldFrom(step, s, xs, pos)
  }

  /** `Fold` on a non-empty input: the first element's step, then the fold of the rest. */
  function FoldFrom<F, T>(step: (Server<F>, T, nat) -> Outcome<F>, s: Server<F>, xs: seq<T>, pos: nat): Outcome<F>
    requires |xs| > 0
    decreases |xs|, 0
  {
    var first := step(s, xs[0], pos);
    var more := Fold(step, first.server, xs[1..], pos + |first.trace|);
    Outcome(more.server, first.trace + more.trace)
  }

  lemma FoldUnfold<F, T>(step: (Server<F>, T, nat) -> Outcome<F>, s: Server<F>, xs: seq<T>, pos: nat)
    requires |xs| > 0
    ensures var first := step(s, xs[0], pos);
      var more := Fold(step, first.server, xs[1..], pos + |first.trace|);
      Fold(step, s, xs, pos) == Outcome(more.server, first.trace + more.trace)
  {
  }

  /** Folding over `a + b` folds over `a`, then over `b` from where `a` left off. */
  lemma {:induction false} FoldAppend<F, T>(step: (Server<F>, T, nat) -> Outcome<F>, s: Server<F>, a: seq<T>, b: seq<T>, pos: nat)
    ensures var x := Fold(step, s, a, pos);
      var y := Fold(step, x.server, b, pos + |x.trace|);
      Fold(step, s, a + b, pos) == Outcome(y.server, x.trace + y.trace)
    decreases |a|
  {
    if |a| == 0 {
      assert a + b == b;
    } else {
      assert (a + b)[0] == a[0] && (a + b)[1..] == a[1..] + b;
      var first := step(s, a[0], pos);
      FoldAppend(step, first.server, a[1..], b, pos + |first.trace|);
      var x' := Fold(step, first.server, a[1..], pos + |first.trace|);
      var y := Fold(step, x'.server, b, pos + |first.trace| + |x'.trace|);
      assert first.trace + (x'.trace + y.trace) == (first.trace + x'.trace) + y.trace;
    }
  }

  /** A fold of steps that each report their byte reports the bytes in order. */
  lemma {:induction false} FoldEvents<F>(step: (Server<F>, u8, nat) -> Outcome<F>, s: Server<F>, bytes: seq<u8>, pos: nat)
    requires forall s': Server<F>, b: u8, p: nat ::
      Octets(step(s', b, p).trace) == [b] && DeliveryOnly(step(s', b, p).trace)
    ensures Octets(Fold(step, s, bytes, pos).trace) == bytes
    ensures DeliveryOnly(Fold(step, s, bytes, pos).trace)
    decreases |bytes|
  {
    if |bytes| > 0 {
      var first := step(s, bytes[0], pos);
      var more := Fold(step, first.server, bytes[1..], pos + |first.trace|);
      FoldEvents(step, first.server, bytes[1..], pos + |first.trace|);
      OctetsAppend(first.trace, more.trace);
      DeliveryOnlyAppend(first.trace, more.trace);
      assert [bytes[0]] + bytes[1..] == bytes;
    }
  }

  /** A fold of steps that each make one write makes one write per element. */
  lemma {:induction false} FoldWrites<F, T>(step: (Server<F>, T, nat) -> Outcome<F>, s: Server<F>, xs: seq<T>, pos: nat)
    requires forall s': Server<F>, x: T, p: nat ::
      |step(s', x, p).trace| == 2 && step(s', x, p).trace[0].Transmit? && step(s', x, p).trace[1] == Check
    ensures |Fold(step, s, xs, pos).trace| == 2 * |xs|
    ensures WriteEvents(Fold(step, s, xs, pos).trace)
    decreases |xs|
  {
    if |xs| > 0 {
      var first := step(s, xs[0], pos);
      var more := Fold(step, first.server, xs[1..], pos + |first.trace|);
      FoldWrites(step, first.server, xs[1..], pos + |first.trace|);
      assert (first.trace + more.trace)[2..] == more.trace;
    }
  }

  // ---------------------------------------------------------------------------
  // Sending

  /**
    `serverWritePacket` with the driver as written: the framer encodes the
    payload into a frame, `serverWrite` hands the whole frame to the driver in
    one attempt and then checks the connection, one event later. A connected
    session survives the write exactly when that check finds the link still
    up, and then the RPC record is untouched.
   */
  function SendPacket<F>(s: Server<F>, fm: Framer<F>, payload: seq<u8>, clock: Clock, pos: nat): (o: Outcome<F>)
    ensures o.trace == [Transmit(fm.frame(s.sfp, payload).1), Check]
    ensures o.server.sfp == fm.frame(s.sfp, payload).0 || o.server == Reset(s.(sfp := fm.frame(s.sfp, payload).0), fm, clock(pos + 1))
    ensures IsConnected(s) ==>
      (IsConnected(o.server) <==> !LinkLost(s.(sfp := fm.frame(s.sfp, payload).0), fm, clock(pos + 1)))
    ensures IsConnected(s) && IsConnected(o.server) ==> o.server == s.(sfp := fm.frame(s.sfp, payload).0)
  {
    var (sfp, frame) := fm.frame(s.sfp, payload);
    Outcome(CheckConnection(s.(sfp := sfp), fm, clock(pos + 1)), [Transmit(frame), Check])
  }

  /**
    The retrying `serverWrite`, driven by the driver that takes the whole
    buffer, does what `SendPacket` says: it completes with the frame as its
    one transmission, then the check, and the status 0.
   */
  method SendThroughDriver<F>(s: Server<F>, fm: Framer<F>, payload: seq<u8>, clock: Clock, pos: nat)
    returns (w: WriteResult<F>)
    ensures w.Completed? && w.status == 0 && w.outlen == None
    ensures w.trace == SendPacket(s, fm, payload, clock, pos).trace
    ensures w.server == SendPacket(s, fm, payload, clock, pos).server
  {
    var (sfp, frame) := fm.frame(s.sfp, payload);
    WholeBufferDriver(|frame|, [|frame|]);
    w := Write(s.(sfp := sfp), fm, frame, [|frame|], false, clock(pos + 1));
    assert |w.chunks| == 1;
    assert Flatten(w.chunks) == Flatten(w.chunks[..0]) + w.chunks[0];
    assert w.chunks[0] == frame;
    assert Paced(w.chunks) == [Transmit(frame)];
  }

  /** One packet write with the framer and the clock fixed. */
  function SendOf<F>(fm: Framer<F>, clock: Clock): (Server<F>, seq<u8>, nat) -> Outcome<F>
  {
    (s: Server<F>, payload: seq<u8>, pos: nat) => SendPacket(s, fm, payload, clock, pos)
  }

  /** The packets one RPC step hands to `writePacket`, sent in order from event `pos` on. */
  function SendAll<F>(s: Server<F>, fm: Framer<F>, payloads: seq<seq<u8>>, clock: Clock, pos: nat): (o: Outcome<F>)
    ensures |o.trace| == 2 * |payloads|
    ensures WriteEvents(o.trace)
  {
    FoldWrites(SendOf(fm, clock), s, payloads, pos);
    Fold(SendOf(fm, clock), s, payloads, pos)
  }

  /**
    Sending `a + b` sends `a`, then sends `b` from the session `a` left
    behind, two events on per packet of `a`; the traces follow one another.
   */
  lemma SendAllAppend<F>(
    s: Server<F>, fm: Framer<F>, a: seq<seq<u8>>, b: seq<seq<u8>>, clock: Clock, pos: nat)
    ensures var x := SendAll(s, fm, a, clock, pos);
      var y := SendAll(x.server, fm, b, clock, pos + 2 * |a|);
      SendAll(s, fm, a + b, clock, pos) == Outcome(y.server, x.trace + y.trace)
  {
    FoldAppend(SendOf(fm, clock), s, a, b, pos);
  }

  /** Sending a non-empty list sends its first packet, then the rest two events on. */
  lemma SendUnfold<F>(s: Server<F>, fm: Framer<F>, payloads: seq<seq<u8>>, clock: Clock, pos: nat)
    requires |payloads| > 0
    ensures var first := SendPacket(s, fm, payloads[0], clock, pos);
      var more := SendAll(first.server, fm, payloads[1..], clock, pos + 2);
      SendAll(s, fm, payloads, clock, pos) == Outcome(more.server, first.trace + more.trace)
  {
    FoldUnfold(SendOf(fm, clock), s, payloads, pos);
  }

  // ---------------------------------------------------------------------------
  // Receiving

  /**
    `serverRead`, called when event `pos` completes a packet: a payload that
    deserialises is handed to `rpcRecv`, whose replies are sent; one that does
    not is dropped. Either way a connection check follows.
   */
  function ServerRead<F, M>(s: Server<F>, fm: Framer<F>, rl: RpcLayer<M>, payload: seq<u8>, clock: Clock, pos: nat)
    : (o: Outcome<F>)
    ensures |o.trace| >= 2 && o.trace[0] == Packet(rl.deserialize(payload).Some?) && o.trace[|o.trace| - 1] == Check
    ensures WriteEvents(o.trace[1..|o.trace| - 1])
    ensures DeliveryOnly(o.trace) && Octets(o.trace) == []
  {
    var (received, replies) := match rl.deserialize(payload)
      case Some(msg) => rl.recv(s.rpc, msg, clock(pos))
      case None => (s.rpc, []);
    var sent := SendAll(s.(rpc := received), fm, replies, clock, pos + 1);
    var trace := [Packet(rl.deserialize(payload).Some?)] + sent.trace + [Check];
    assert trace[1..|trace| - 1] == sent.trace;
    WritesAreDelivery(sent.trace);
    OctetsAppend([Packet(rl.deserialize(payload).Some?)], sent.trace);
    OctetsAppend([Packet(rl.deserialize(payload).Some?)] + sent.trace, [Check]);
    DeliveryOnlyAppend([Packet(rl.deserialize(payload).Some?)], sent.trace);
    DeliveryOnlyAppend([Packet(rl.deserialize(payload).Some?)] + sent.trace, [Check]);
    Outcome(CheckConnection(sent.server, fm, clock(pos + 1 + |sent.trace|)), trace)
  }

  /**
    One byte handed to the framer at event `pos`: the framer steps, and when
    the byte completes a packet the delivery callback runs.
   */
  function Step<F, M>(s: Server<F>, fm: Framer<F>, rl: RpcLayer<M>, b: u8, clock: Clock, pos: nat): (o: Outcome<F>)
    ensures Octets(o.trace) == [b]
    ensures DeliveryOnly(o.trace)
    ensures o.trace[0] == Octet(b)
  {
    var d := fm.deliver(s.sfp, b);
    if d.1.None? then
      OctetsAppend([Octet(b)], []);
      Outcome(s.(sfp := d.0), [Octet(b)])
    else
      var read := ServerRead(s.(sfp := d.0), fm, rl, d.1.value, clock, pos + 1);
      OctetsAppend([Octet(b)], read.trace);
      DeliveryOnlyAppend([Octet(b)], read.trace);
      Outcome(read.server, [Octet(b)] + read.trace)
  }

  /** The delivery step with the framer, the RPC layer and the clock fixed. */
  function StepOf<F, M>(fm: Framer<F>, rl: RpcLayer<M>, clock: Clock): (Server<F>, u8, nat) -> Outcome<F>
  {
    (s: Server<F>, b: u8, pos: nat) => Step(s, fm, rl, b, clock, pos)
  }

  /**
    The inner loop of `serverThread` from event `pos` on: each byte goes to
    the framer in turn; a byte that completes a packet runs the delivery
    callback before the next byte is handed over. Each byte is reported once,
    in order, and nothing but delivery happens.
   */
  function Deliver<F, M>(s: Server<F>, fm: Framer<F>, rl: RpcLayer<M>, bytes: seq<u8>, clock: Clock, pos: nat)
    : (o: Outcome<F>)
    ensures Octets(o.trace) == bytes
    ensures DeliveryOnly(o.trace)
  {
    FoldEvents(StepOf(fm, rl, clock), s, bytes, pos);
    Fold(StepOf(fm, rl, clock), s, bytes, pos)
  }

  // ---------------------------------------------------------------------------
  // Delivery against the framer alone

  /** The framer state after `bytes`, stepping the framer only: a reference fold of the delivery step. */
  function Feed<F>(fm: Framer<F>, sfp: F, bytes: seq<u8>): F
    decreases |bytes|
  {
    if |bytes| == 0 then sfp else Feed(fm, fm.deliver(sfp, bytes[0]).0, bytes[1..])
  }

  /** No byte of `bytes`, fed from `sfp`, completes a packet. */
  predicate Silent<F>(fm: Framer<F>, sfp: F, bytes: seq<u8>)
    decreases |bytes|
  {
    || |bytes| == 0
    || (fm.deliver(sfp, bytes[0]).1.None? && Silent(fm, fm.deliver(sfp, bytes[0]).0, bytes[1..]))
  }

  /** One octet event per byte, in order. */
  function OctetEvents(bytes: seq<u8>): seq<Event>
    decreases |bytes|
  {
    if |bytes| == 0 then [] else [Octet(bytes[0])] + OctetEvents(bytes[1..])
  }

  /**
    While no byte completes a packet, delivery only advances the framer: the
    session is the input session with the framer state the fold reaches, and
    the trace is the bytes themselves.
   */
  lemma {:induction false} QuietDelivery<F, M>(
    s: Server<F>, fm: Framer<F>, rl: RpcLayer<M>, bytes: seq<u8>, clock: Clock, pos: nat)
    requires Silent(fm, s.sfp, bytes)
    ensures Deliver(s, fm, rl, bytes, clock, pos) == Outcome(s.(sfp := Feed(fm, s.sfp, bytes)), OctetEvents(bytes))
    decreases |bytes|
  {
    if |bytes| > 0 {
      var sfp := fm.deliver(s.sfp, bytes[0]).0;
      assert Step(s, fm, rl, bytes[0], clock, pos) == Outcome(s.(sfp := sfp), [Octet(bytes[0])]);
      DeliverUnfold(s, fm, rl, bytes, clock, pos);
      QuietDelivery(s.(sfp := sfp), fm, rl, bytes[1..], clock, pos + 1);
    }
  }

  /**
    Delivering `a + b` is delivering `a`, then delivering `b` from the session
    and the event count `a` left behind; the traces follow one another.
   */
  lemma DeliverAppend<F, M>(
    s: Server<F>, fm: Framer<F>, rl: RpcLayer<M>, a: seq<u8>, b: seq<u8>, clock: Clock, pos: nat)
    ensures var x := Deliver(s, fm, rl, a, clock, pos);
      var y := Deliver(x.server, fm, rl, b, clock, pos + |x.trace|);
      Deliver(s, fm, rl, a + b, clock, pos) == Outcome(y.server, x.trace + y.trace)
  {
    FoldAppend(StepOf(fm, rl, clock), s, a, b, pos);
  }

  lemma DeliverUnfold<F, M>(s: Server<F>, fm: Framer<F>, rl: RpcLayer<M>, bytes: seq<u8>, clock: Clock, pos: nat)
    requires |bytes| > 0
    ensures var first := Step(s, fm, rl, bytes[0], clock, pos);
      var more := Deliver(first.server, fm, rl, bytes[1..], clock, pos + |first.trace|);
      Deliver(s, fm, rl, bytes, clock, pos) == Outcome(more.server, first.trace + more.trace)
  {
    FoldUnfold(StepOf(fm, rl, clock), s, bytes, pos);
  }

  // ---------------------------------------------------------------------------
  // One iteration

  /**
    The result of one iteration of the server loop: the session at its end
    and right after the iteration's own connection check, the bytes read and
    left buffered, the events in order, and the position of that check.
   */
  datatype Iteration<F> = Iteration(
    server: Server<F>, checked: Server<F>, read: seq<u8>, rest: seq<u8>, trace: seq<Event>, checkAt: nat)

  /**
    The order of one iteration: deliveries up to position `c`, the iteration's
    connection check there, then, exactly when that check left the session
    connected, the RPC work and the writes it makes, and the pacing delay last.
   */
  predicate IterationOrder(trace: seq<Event>, c: nat, connected: bool) {
    && c + 2 <= |trace|
    && DeliveryOnly(trace[..c])
    && trace[c] == Check
    && trace[|trace| - 1] == Sleep(PaceMillis)
    && (connected ==> trace[c + 1] == RpcLoop && WriteEvents(trace[c + 2..|trace| - 1]))
    && (!connected ==> |trace| == c + 2)
  }

  /**
    When the iteration's check keeps the session, the iteration ends where
    the RPC step, run at the event after the check, and its writes leave it.
   */
  ghost predicate RpcEnd<F, M>(r: Iteration<F>, fm: Framer<F>, rl: RpcLayer<M>, clock: Clock) {
    IsConnected(r.checked) ==>
      var step := rl.tick(r.checked.rpc, clock(r.checkAt + 1));
      r.server == SendAll(r.checked.(rpc := step.0), fm, step.1, clock, r.checkAt + 2).server
  }

  /**
    One iteration of `serverThread`: read at most `maxPacket` buffered bytes
    (the framer's maximum packet size), deliver them, check the connection,
    run `rpcLoop` and send what it sends if connected, and pause 2 ms.
   */
  function Iterate<F, M>(s: Server<F>, fm: Framer<F>, rl: RpcLayer<M>, pending: seq<u8>, maxPacket: nat, clock: Clock)
    : (r: Iteration<F>)
    ensures |r.read| == Min(maxPacket, |pending|)
    ensures r.read + r.rest == pending
    ensures Octets(r.trace) == r.read
    ensures IterationOrder(r.trace, r.checkAt, IsConnected(r.checked))
    ensures r.checkAt == |Deliver(s, fm, rl, r.read, clock, 0).trace|
    ensures r.checked == CheckConnection(Deliver(s, fm, rl, r.read, clock, 0).server, fm, clock(r.checkAt))
    ensures !IsConnected(r.checked) ==> r.server == r.checked
    ensures RpcEnd(r, fm, rl, clock)
  {
    var count := Min(maxPacket, |pending|);
    var read := pending[..count];
    var delivered := Deliver(s, fm, rl, read, clock, 0);
    var c := |delivered.trace|;
    assert pending[..count] + pending[count..] == pending;
    Finish(CheckConnection(delivered.server, fm, clock(c)), fm, rl, delivered.trace, read, pending[count..], clock)
  }

  /**
    The rest of an iteration once `delivered` has been delivered and the
    iteration's own check has left `checked`: the RPC work and its writes
    when connected, and the pause.
   */
  function Finish<F, M>(
    checked: Server<F>, fm: Framer<F>, rl: RpcLayer<M>, delivered: seq<Event>, read: seq<u8>, rest: seq<u8>, clock: Clock)
    : (r: Iteration<F>)
    requires DeliveryOnly(delivered) && Octets(delivered) == read
    ensures r.checked == checked && r.read == read && r.rest == rest && r.checkAt == |delivered|
    ensures Octets(r.trace) == read
    ensures IterationOrder(r.trace, |delivered|, IsConnected(checked))
    ensures !IsConnected(checked) ==> r.server == checked
    ensures RpcEnd(r, fm, rl, clock)
  {
    var c := |delivered|;
    if IsConnected(checked) then
      var step := rl.tick(checked.rpc, clock(c + 1));
      var sent := SendAll(checked.(rpc := step.0), fm, step.1, clock, c + 2);
      ConnectedOrder(delivered, sent.trace, read);
      Iteration(sent.server, checked, read, rest, delivered + ([Check, RpcLoop] + sent.trace + [Sleep(PaceMillis)]), c)
    else
      DisconnectedOrder(delivered, read);
      Iteration(checked, checked, read, rest, delivered + [Check, Sleep(PaceMillis)], c)
  }

  /** The events of an iteration whose check keeps the session, in order. */
  lemma ConnectedOrder(delivered: seq<Event>, sent: seq<Event>, read: seq<u8>)
    requires DeliveryOnly(delivered) && Octets(delivered) == read && WriteEvents(sent)
    ensures var trace := delivered + ([Check, RpcLoop] + sent + [Sleep(PaceMillis)]);
      IterationOrder(trace, |delivered|, true) && Octets(trace) == read
  {
    var tail := [Check, RpcLoop] + sent + [Sleep(PaceMillis)];
    var trace := delivered + tail;
    Pieces(delivered, Check, RpcLoop, sent, Sleep(PaceMillis));
    WritesInPlace(delivered, sent);
    assert DeliveryOnly(trace[..|delivered|]);
    TailOctets(sent);
    AppendNoOctets(delivered, tail);
  }

  /** The writes of the RPC step sit between `RpcLoop` and the pause. */
  lemma WritesInPlace(a: seq<Event>, m: seq<Event>)
    requires WriteEvents(m)
    ensures var t := a + ([Check, RpcLoop] + m + [Sleep(PaceMillis)]);
      WriteEvents(t[|a| + 2..|t| - 1])
  {
    Pieces(a, Check, RpcLoop, m, Sleep(PaceMillis));
  }

  lemma AppendNoOctets(a: seq<Event>, b: seq<Event>)
    requires Octets(b) == []
    ensures Octets(a + b) == Octets(a)
  {
    OctetsAppend(a, b);
    assert Octets(a) + [] == Octets(a);
  }

  /** Where the pieces of `a + ([x, y] + m + [z])` sit. */
  lemma Pieces<T>(a: seq<T>, x: T, y: T, m: seq<T>, z: T)
    ensures var t := a + ([x, y] + m + [z]);
      && |t| == |a| + |m| + 3
      && t[..|a|] == a && t[|a|] == x && t[|a| + 1] == y && t[|a| + 2..|t| - 1] == m && t[|t| - 1] == z
  {
    var t := a + ([x, y] + m + [z]);
    assert t[|a| + 2..|t| - 1] == m by {
      forall i | 0 <= i < |m| ensures t[|a| + 2 + i] == m[i] {}
    }
  }

  lemma TailOctets(sent: seq<Event>)
    requires WriteEvents(sent)
    ensures Octets([Check, RpcLoop] + sent + [Sleep(PaceMillis)]) == []
  {
    WritesAreDelivery(sent);
    OctetsAppend([Check, RpcLoop], sent);
    OctetsAppend([Check, RpcLoop] + sent, [Sleep(PaceMillis)]);
  }

  /** The events of an iteration whose check leaves the session disconnected, in order. */
  lemma DisconnectedOrder(delivered: seq<Event>, read: seq<u8>)
    requires DeliveryOnly(delivered) && Octets(delivered) == read
    ensures var trace := delivered + [Check, Sleep(PaceMillis)];
      IterationOrder(trace, |delivered|, false) && Octets(trace) == read
  {
    var trace := delivered + [Check, Sleep(PaceMillis)];
    OctetsAppend(delivered, [Check, Sleep(PaceMillis)]);
    NoOctets([Check, Sleep(PaceMillis)]);
    assert trace[..|delivered|] == delivered;
  }

  // ---------------------------------------------------------------------------
  // Properties of the loop

  /** A payload that does not deserialise never reaches the RPC layer and sends nothing. */
  lemma DroppedPayload<F, M>(s: Server<F>, fm: Framer<F>, rl: RpcLayer<M>, payload: seq<u8>, clock: Clock, pos: nat)
    requires rl.deserialize(payload).None?
    ensures ServerRead(s, fm, rl, payload, clock, pos) == Outcome(CheckConnection(s, fm, clock(pos + 1)), [Packet(false), Check])
  {
  }

  /**
    A payload that deserialises is handed to `rpcRecv` at the packet's own
    event, and exactly the replies it returns are sent, in order, from the
    next event on; the callback's check follows the last of them.
   */
  lemma RepliedPayload<F, M>(
    s: Server<F>, fm: Framer<F>, rl: RpcLayer<M>, payload: seq<u8>, msg: M, rpc: Rpc, replies: seq<seq<u8>>,
    clock: Clock, pos: nat)
    requires rl.deserialize(payload) == Some(msg)
    requires rl.recv(s.rpc, msg, clock(pos)) == (rpc, replies)
    ensures var x := SendAll(s.(rpc := rpc), fm, replies, clock, pos + 1);
      ServerRead(s, fm, rl, payload, clock, pos)
        == Outcome(CheckConnection(x.server, fm, clock(pos + 1 + 2 * |replies|)), [Packet(true)] + x.trace + [Check])
  {
  }

  /**
    A payload that deserialises is handed to `rpcRecv` at the packet's own
    event; when `rpcRecv` sends nothing, the session is its updated record
    after one connection check, one event later, and the trace is the packet
    and that check.
   */
  lemma AcceptedPayload<F, M>(
    s: Server<F>, fm: Framer<F>, rl: RpcLayer<M>, payload: seq<u8>, msg: M, rpc: Rpc, clock: Clock, pos: nat)
    requires rl.deserialize(payload) == Some(msg)
    requires rl.recv(s.rpc, msg, clock(pos)) == (rpc, [])
    ensures ServerRead(s, fm, rl, payload, clock, pos) == Outcome(CheckConnection(s.(rpc := rpc), fm, clock(pos + 1)), [Packet(true), Check])
  {
    RepliedPayload(s, fm, rl, payload, msg, rpc, [], clock, pos);
  }

  /**
    A heartbeat packet completed by the only byte read keeps the session: the
    byte goes to the framer at event 0, the packet reaches `rpcRecv` at event
    1, which records the heartbeat at that clock reading and sends nothing,
    and the checks at events 2 and 3 (the delivery's own and the
    iteration's) see a fresh heartbeat, the link up and the timestamp within
    its guard. So the iteration's check leaves the session connected with the
    refreshed record, and the RPC work runs.
   */
  lemma HeartbeatPacketKeepsSession<F, M>(
    s: Server<F>, fm: Framer<F>, rl: RpcLayer<M>, b: u8, msg: M, rpc: Rpc, clock: Clock)
    requires s.state == Connected
    requires fm.deliver(s.sfp, b).1.Some? && fm.connected(fm.deliver(s.sfp, b).0)
    requires rl.deserialize(fm.deliver(s.sfp, b).1.value) == Some(msg)
    requires rl.recv(s.rpc, msg, clock(1)) == (rpc, []) && rpc.heartbeat == clock(1)
    requires Elapsed(clock(2), clock(1)) <= HeartbeatLimit && Elapsed(clock(3), clock(1)) <= HeartbeatLimit
    requires Elapsed(clock(2), rpc.timestamp) <= TimestampLimit && Elapsed(clock(3), rpc.timestamp) <= TimestampLimit
    ensures var r := Iterate(s, fm, rl, [b], 1, clock);
      && r.checkAt == 3
      && r.trace[..4] == [Octet(b), Packet(true), Check, Check]
      && r.checked == s.(sfp := fm.deliver(s.sfp, b).0, rpc := rpc)
      && IsConnected(r.checked)
      && RpcLoop in r.trace
  {
    var kept := s.(sfp := fm.deliver(s.sfp, b).0, rpc := rpc);
    HeartbeatPacketDelivery(s, fm, rl, b, msg, rpc, clock);
    var r := Iterate(s, fm, rl, [b], 1, clock);
    assert r.read == [b];
    assert r.checked == kept;
    assert r.trace[..3] == [Octet(b), Packet(true), Check];
    assert r.trace[4] == RpcLoop;
  }

  /** Delivering the byte that completes the heartbeat packet: its octet, the packet, and the callback's check, which keeps the session. */
  lemma HeartbeatPacketDelivery<F, M>(
    s: Server<F>, fm: Framer<F>, rl: RpcLayer<M>, b: u8, msg: M, rpc: Rpc, clock: Clock)
    requires s.state == Connected
    requires fm.deliver(s.sfp, b).1.Some? && fm.connected(fm.deliver(s.sfp, b).0)
    requires rl.deserialize(fm.deliver(s.sfp, b).1.value) == Some(msg)
    requires rl.recv(s.rpc, msg, clock(1)) == (rpc, []) && rpc.heartbeat == clock(1)
    requires Elapsed(clock(2), clock(1)) <= HeartbeatLimit && Elapsed(clock(2), rpc.timestamp) <= TimestampLimit
    ensures Deliver(s, fm, rl, [b], clock, 0)
      == Outcome(s.(sfp := fm.deliver(s.sfp, b).0, rpc := rpc), [Octet(b), Packet(true), Check])
  {
    var s1 := s.(sfp := fm.deliver(s.sfp, b).0);
    var kept := s1.(rpc := rpc);
    AcceptedPayload(s1, fm, rl, fm.deliver(s.sfp, b).1.value, msg, rpc, clock, 1);
    assert CheckConnection(kept, fm, clock(2)) == kept;
    assert Step(s, fm, rl, b, clock, 0) == Outcome(kept, [Octet(b), Packet(true), Check]);
    DeliverUnfold(s, fm, rl, [b], clock, 0);
    assert [b][1..] == [];
  }

  /**
    A heartbeat recent at the iteration's own check is seen by that check: if
    delivery leaves the session connected, the link up and both the heartbeat
    and the message timestamp within their limits at the check's clock
    reading, the check keeps the session and the RPC work runs.
   */
  lemma HeartbeatCountedBeforeCheck<F, M>(
    s: Server<F>, fm: Framer<F>, rl: RpcLayer<M>, pending: seq<u8>, maxPacket: nat, clock: Clock)
    requires var d := Deliver(s, fm, rl, pending[..Min(maxPacket, |pending|)], clock, 0);
      && d.server.state == Connected && fm.connected(d.server.sfp)
      && Elapsed(clock(|d.trace|), d.server.rpc.heartbeat) <= HeartbeatLimit
      && Elapsed(clock(|d.trace|), d.server.rpc.timestamp) <= TimestampLimit
    ensures var r := Iterate(s, fm, rl, pending, maxPacket, clock);
      r.checked == Deliver(s, fm, rl, r.read, clock, 0).server && IsConnected(r.checked) && RpcLoop in r.trace
  {
    var r := Iterate(s, fm, rl, pending, maxPacket, clock);
    assert r.read == pending[..Min(maxPacket, |pending|)];
    assert r.trace[r.checkAt + 1] == RpcLoop;
  }

  /** RPC work runs in an iteration exactly when the iteration's own check leaves the session connected. */
  lemma RpcWorkExactlyWhenConnected<F, M>(
    s: Server<F>, fm: Framer<F>, rl: RpcLayer<M>, pending: seq<u8>, maxPacket: nat, clock: Clock)
    ensures var r := Iterate(s, fm, rl, pending, maxPacket, clock);
      RpcLoop in r.trace <==> IsConnected(r.checked)
  {
    var r := Iterate(s, fm, rl, pending, maxPacket, clock);
    var c := r.checkAt;
    if IsConnected(r.checked) {
      assert r.trace[c + 1] == RpcLoop;
    } else {
      assert r.trace == r.trace[..c] + [Check, Sleep(PaceMillis)];
      DeliveryIsNotRpcWork(r.trace[..c]);
    }
  }


  /**
    RPC work can end the session: when the iteration's check keeps it, the
    RPC step sends one packet, and the clock at that write's own check is
    more than 5000 ms past the heartbeat, the iteration ends disconnected
    after having run the RPC work.
   */
  lemma RpcWriteCanDisconnect<F, M>(
    s: Server<F>, fm: Framer<F>, rl: RpcLayer<M>, pending: seq<u8>, maxPacket: nat, clock: Clock)
    requires var r := Iterate(s, fm, rl, pending, maxPacket, clock);
      var step := rl.tick(r.checked.rpc, clock(r.checkAt + 1));
      && IsConnected(r.checked)
      && |step.1| == 1
      && Elapsed(clock(r.checkAt + 3), step.0.heartbeat) > HeartbeatLimit
    ensures var r := Iterate(s, fm, rl, pending, maxPacket, clock);
      && RpcLoop in r.trace
      && !IsConnected(r.server)
      && GetIpv4(r.server) == NoAddress
  {
    var r := Iterate(s, fm, rl, pending, maxPacket, clock);
    var step := rl.tick(r.checked.rpc, clock(r.checkAt + 1));
    SendOne(r.checked.(rpc := step.0), fm, step.1, clock, r.checkAt + 2);
  }

  /** Sending a single packet is one `SendPacket`. */
  lemma SendOne<F>(s: Server<F>, fm: Framer<F>, payloads: seq<seq<u8>>, clock: Clock, pos: nat)
    requires |payloads| == 1
    ensures SendAll(s, fm, payloads, clock, pos).server == SendPacket(s, fm, payloads[0], clock, pos).server
  {
    SendUnfold(s, fm, payloads, clock, pos);
    assert payloads[1..] == [];
  }

  /**
    With nothing buffered, an iteration is its check, then either the pause
    alone or the RPC work, one transmission and check per packet it sends,
    and the pause.
   */
  lemma IdleIteration<F, M>(s: Server<F>, fm: Framer<F>, rl: RpcLayer<M>, maxPacket: nat, clock: Clock)
    ensures var r := Iterate(s, fm, rl, [], maxPacket, clock);
      && r.read == [] && r.rest == [] && r.checkAt == 0
      && r.checked == CheckConnection(s, fm, clock(0))
      && (!IsConnected(r.checked) ==> r.trace == [Check, Sleep(2)] && r.server == r.checked)
      && (IsConnected(r.checked) ==>
            && r.trace[..2] == [Check, RpcLoop]
            && |r.trace| == 3 + 2 * |rl.tick(r.checked.rpc, clock(1)).1|)
  {
    var r := Iterate(s, fm, rl, [], maxPacket, clock);
    assert r.read == [];
    if IsConnected(r.checked) {
      var (rpc, payloads) := rl.tick(r.checked.rpc, clock(1));
      assert |r.trace| == 3 + |SendAll(r.checked.(rpc := rpc), fm, payloads, clock, 2).trace|;
    }
  }
}

=== FILE: session.dfy ===
/**
  The serial session record of the server and its connection state machine
  (pros/src/server.c): reset, the connection check that drives the two-state
  record from the framer's "is connected" flag and the clock, the public
  queries, and the start/stop handle of the server task.

  The framer (`sfp*`) is a parameter: an initial state, a byte-delivery step,
  a packet-framing step and a connectivity query over a state type `F` the
  model does not look into.
 */
module Session {
  import opened Common

  /** `serverState_t`: `serverStateConnected` is the enumerator with value 0. */
  datatype State = Connected | Disconnected

  /** `serverIpv4_t`: four address bytes. */
  type Ipv4 = s: seq<u8> | |s| == 4 witness [0, 0, 0, 0]

  const NoAddress: Ipv4 := [0, 0, 0, 0]

  /** Largest heartbeat age, in milliseconds, that keeps a session connected. */
  const HeartbeatLimit: int := 5000

  /** Largest message age that keeps a session connected: a guard against a stale clock. */
  const TimestampLimit: int := 2147483647

  /** The pacing delay of the server loop and of the write retry, in milliseconds. */
  const PaceMillis: nat := 2

  /** The part of the RPC record the session manager reads or writes. */
  datatype Rpc = Rpc(
    seqId: nat,
    timestamp: u32,
    heartbeat: u32,
    published: u32,
    sendstats: u32,
    ipv4: Ipv4)

  /**
    The framer as the session manager uses it: the state `sfpInit` produces,
    one `sfpDeliverOctet` step (which may complete a packet and hand its payload
    to the delivery callback), `sfpWritePacket` (which encodes a payload into
    the frame it hands to the write callback), and `sfpIsConnected`.
   */
  datatype Framer<!F> = Framer(
    init: F,
    deliver: (F, u8) -> (F, Option<seq<u8>>),
    frame: (F, seq<u8>) -> (F, seq<u8>),
    connected: F -> bool)

  /** `server_t` without its transport handle: state, RPC record and framer context. */
  datatype Server<F> = Server(state: State, rpc: Rpc, sfp: F)

  /** What the session manager does to the outside world, in order. */
  datatype Event =
    | Octet(b: u8)              // one input byte handed to the framer
    | Packet(accepted: bool)    // a reassembled packet; accepted when it deserialised
    | Check                     // one connection check
    | RpcLoop                   // one unit of periodic RPC work
    | Sleep(millis: nat)        // a pacing delay
    | Transmit(chunk: seq<u8>)  // the bytes one transport write accepted

  /**
    `chTimeElapsedSince(start)`: the unsigned 32-bit difference `millis() - start`,
    which wraps around when the clock has passed 2^32 since `start`.
   */
  function Elapsed(now: u32, start: u32): (e: u32)
    ensures start <= now ==> e == now - start
    ensures now < start ==> e == U32Modulus - (start - now)
  {
    (now - start) % U32Modulus
  }

  /** The ghost session invariant: a disconnected session has no peer and no sequence. */
  ghost predicate Quiescent<F>(s: Server<F>) {
    s.state == Disconnected ==> s.rpc.seqId == 0 && s.rpc.ipv4 == NoAddress
  }

  /** The zero-initialised static `server`, before `serverInit` runs. */
  function Zeroed<F>(sfp: F): (s: Server<F>)
    ensures s.state == Connected
    ensures s.rpc.ipv4 == NoAddress && s.rpc.seqId == 0
    ensures s.rpc.timestamp == 0 && s.rpc.heartbeat == 0
    ensures s.rpc.published == 0 && s.rpc.sendstats == 0
    ensures s.sfp == sfp
  {
    Server(Connected, Rpc(0, 0, 0, 0, 0, NoAddress), sfp)
  }

  /**
    `serverReset`: disconnect, clear the sequence id and the peer address,
    refresh only the message timestamp, and start a fresh framer.
   */
  function Reset<F>(s: Server<F>, fm: Framer<F>, now: u32): (r: Server<F>)
    ensures r.state == Disconnected && Quiescent(r)
    ensures r.rpc.timestamp == now
    ensures r.rpc.heartbeat == s.rpc.heartbeat
    ensures r.rpc.published == s.rpc.published
    ensures r.rpc.sendstats == s.rpc.sendstats
    ensures r.sfp == fm.init
  {
    Server(Disconnected, s.rpc.(seqId := 0, timestamp := now, ipv4 := NoAddress), fm.init)
  }

  /** `serverInit`: a reset; the line configuration it also performs is foreign. */
  function Init<F>(s: Server<F>, fm: Framer<F>, now: u32): (r: Server<F>)
    ensures !IsConnected(r) && Quiescent(r)
    ensures r.rpc.timestamp == now && r.rpc.heartbeat == s.rpc.heartbeat
    ensures r.sfp == fm.init
  {
    Reset(s, fm, now)
  }

  /** The four RPC timestamps all set to `now`. */
  function Refreshed(rpc: Rpc, now: u32): (r: Rpc)
    ensures r.timestamp == now && r.heartbeat == now && r.published == now && r.sendstats == now
    ensures r.seqId == rpc.seqId && r.ipv4 == rpc.ipv4
  {
    rpc.(timestamp := now, heartbeat := now, published := now, sendstats := now)
  }

  /** The start of the server task: all four timestamps are refreshed before the loop. */
  function ThreadStart<F>(s: Server<F>, now: u32): (r: Server<F>)
    ensures r.rpc == Refreshed(s.rpc, now)
    ensures r.state == s.state && r.sfp == s.sfp
  {
    s.(rpc := Refreshed(s.rpc, now))
  }

  /** When a connected session must be reset: framer lost, heartbeat stale, or clock guard. */
  predicate LinkLost<F>(s: Server<F>, fm: Framer<F>, now: u32) {
    || !fm.connected(s.sfp)
    || Elapsed(now, s.rpc.heartbeat) > HeartbeatLimit
    || Elapsed(now, s.rpc.timestamp) > TimestampLimit
  }

  /**
    `serverCheckConnection`: at most one transition per call. A disconnected
    session connects when the framer reports a link, refreshing all four
    timestamps; a connected session is reset when the link is lost.
   */
  function CheckConnection<F>(s: Server<F>, fm: Framer<F>, now: u32): (r: Server<F>)
    ensures s.state == Disconnected ==> (r.state == Connected <==> fm.connected(s.sfp))
    ensures s.state == Connected ==> (r.state == Connected <==> !LinkLost(s, fm, now))
    ensures r == s || r.rpc == Refreshed(s.rpc, now) || r == Reset(s, fm, now)
    ensures s.state == Disconnected ==> r.sfp == s.sfp && r.rpc.seqId == s.rpc.seqId
    ensures Quiescent(s) ==> Quiescent(r)
  {
    if s.state == Disconnected then
      if fm.connected(s.sfp) then s.(state := Connected, rpc := Refreshed(s.rpc, now)) else s
    else
      if LinkLost(s, fm, now) then Reset(s, fm, now) else s
  }

  /** `serverIsConnected`: whether the state is the enumerator 0, `serverStateConnected`. */
  function IsConnected<F>(s: Server<F>): (b: bool)
    ensures b <==> s.state != Disconnected
  {
    s.state == Connected
  }

  /** `serverGetIpv4`: a copy of the peer address. */
  function GetIpv4<F>(s: Server<F>): (a: Ipv4)
    ensures Quiescent(s) && !IsConnected(s) ==> a == NoAddress
  {
    s.rpc.ipv4
  }

  // ---------------------------------------------------------------------------
  // Properties of the connection check

  /** From Disconnected, a check connects exactly when the framer reports a link. */
  lemma ConnectTransition<F>(s: Server<F>, fm: Framer<F>, now: u32)
    requires s.state == Disconnected
    ensures var r := CheckConnection(s, fm, now);
      && (fm.connected(s.sfp) ==>
            && IsConnected(r)
            && r.rpc.timestamp == now && r.rpc.heartbeat == now
            && r.rpc.published == now && r.rpc.sendstats == now
            && r.rpc.seqId == s.rpc.seqId && r.rpc.ipv4 == s.rpc.ipv4 && r.sfp == s.sfp)
      && (!fm.connected(s.sfp) ==> r == s)
  {
  }

  /** From Connected, a check resets if and only if the link is lost, and changes nothing otherwise. */
  lemma DisconnectCondition<F>(s: Server<F>, fm: Framer<F>, now: u32)
    requires s.state == Connected
    ensures var r := CheckConnection(s, fm, now);
      && (!IsConnected(r) <==>
            || !fm.connected(s.sfp)
            || (now - s.rpc.heartbeat) % U32Modulus > 5000
            || (now - s.rpc.timestamp) % U32Modulus > 2147483647)
      && (IsConnected(r) ==> r == s)
      && (!IsConnected(r) ==> r == Reset(s, fm, now))
  {
  }

  /** A heartbeat aged exactly 5000 ms keeps the session; one millisecond more resets it. */
  lemma HeartbeatBoundary<F>(s: Server<F>, fm: Framer<F>, now: u32)
    requires s.state == Connected && fm.connected(s.sfp)
    requires Elapsed(now, s.rpc.timestamp) <= TimestampLimit
    ensures Elapsed(now, s.rpc.heartbeat) == 5000 ==> CheckConnection(s, fm, now) == s
    ensures Elapsed(now, s.rpc.heartbeat) == 5001 ==> !IsConnected(CheckConnection(s, fm, now))
  {
  }

  /** The heartbeat age wraps with the clock: a heartbeat just before the wrap still ages. */
  lemma HeartbeatAgeAcrossWrap<F>(s: Server<F>, fm: Framer<F>)
    requires s.state == Connected && fm.connected(s.sfp)
    requires s.rpc.heartbeat == 0xFFFF_F000 && s.rpc.timestamp == 0xFFFF_F000
    ensures Elapsed(0x0000_0388, s.rpc.heartbeat) == 5000
    ensures CheckConnection(s, fm, 0x0000_0388) == s
    ensures CheckConnection(s, fm, 0x0000_0389) == Reset(s, fm, 0x0000_0389)
  {
  }

  /** Connecting never resets in the same call, and a check right after stays connected. */
  lemma ConnectIsNotUndone<F>(s: Server<F>, fm: Framer<F>, now: u32)
    requires s.state == Disconnected && fm.connected(s.sfp)
    ensures IsConnected(CheckConnection(s, fm, now))
    ensures CheckConnection(CheckConnection(s, fm, now), fm, now) == CheckConnection(s, fm, now)
  {
  }

  /** Any reset, whatever the prior state, leaves no peer address and a zero sequence id. */
  lemma ResetClearsSession<F>(s: Server<F>, fm: Framer<F>, now: u32)
    ensures !IsConnected(Reset(s, fm, now))
    ensures GetIpv4(Reset(s, fm, now)) == [0, 0, 0, 0]
    ensures Reset(s, fm, now).rpc.seqId == 0
    ensures Reset(Reset(s, fm, now), fm, now) == Reset(s, fm, now)
  {
  }

  /** The static record reads as connected until `serverInit` resets it. */
  lemma StartupOrder<F>(sfp: F, fm: Framer<F>, now: u32)
    ensures IsConnected(Zeroed(sfp))
    ensures !IsConnected(Init(Zeroed(sfp), fm, now))
    ensures Init(Zeroed(sfp), fm, now).rpc.heartbeat == 0
  {
  }

  // ---------------------------------------------------------------------------
  // Sequences of checks

  /** A run of connection checks at the given clock readings, with nothing else happening. */
  function Checks<F>(s: Server<F>, fm: Framer<F>, times: seq<u32>): Server<F>
    decreases |times|
  {
    if |times| == 0 then s else Checks(CheckConnection(s, fm, times[0]), fm, times[1..])
  }

  /** If the framer never reports a link, a reset session stays disconnected with no peer. */
  lemma {:induction false} NeverConnected<F>(s: Server<F>, fm: Framer<F>, times: seq<u32>)
    requires s.state == Disconnected && Quiescent(s)
    requires !fm.connected(s.sfp)
    ensures Checks(s, fm, times) == s
    ensures !IsConnected(Checks(s, fm, times))
    ensures GetIpv4(Checks(s, fm, times)) == NoAddress
    decreases |times|
  {
    if |times| > 0 {
      assert CheckConnection(s, fm, times[0]) == s;
      NeverConnected(s, fm, times[1..]);
    }
  }

  /** Any check whose clock is more than 5000 ms past the last heartbeat disconnects. */
  lemma HeartbeatTimeout<F>(s: Server<F>, fm: Framer<F>, t0: u32, t1: u32)
    requires s.state == Connected && s.rpc.heartbeat == t0
    requires Elapsed(t1, t0) > HeartbeatLimit
    ensures !IsConnected(CheckConnection(s, fm, t1))
    ensures GetIpv4(CheckConnection(s, fm, t1)) == NoAddress
  {
  }

  /**
    Connect at t = 0, then silence: still connected at 4999, disconnected at
    5001 with the peer address cleared.
   */
  lemma ConnectThenSilence<F>(s: Server<F>, fm: Framer<F>)
    requires s.state == Disconnected
    requires fm.connected(s.sfp)
    ensures var c := CheckConnection(s, fm, 0);
      && IsConnected(c)
      && IsConnected(CheckConnection(c, fm, 4999))
      && !IsConnected(CheckConnection(CheckConnection(c, fm, 4999), fm, 5001))
      && GetIpv4(CheckConnection(CheckConnection(c, fm, 4999), fm, 5001)) == NoAddress
  {
  }

  // ---------------------------------------------------------------------------
  // Heartbeats between checks

  /**
    What reaches the session between its own bookkeeping: a heartbeat message,
    which the RPC layer records before `serverRead` checks the connection at
    the same clock reading, or a bare connection check, as the task loop and
    every write make them.
   */
  datatype Moment = HeartbeatAt(t: u32) | CheckAt(t: u32)

  /** A session after a run of moments. */
  function Run<F>(s: Server<F>, fm: Framer<F>, moments: seq<Moment>): Server<F>
    decreases |moments|
  {
    if |moments| == 0 then s
    else
      var m := moments[0];
      var beaten := if m.HeartbeatAt? then s.(rpc := s.rpc.(heartbeat := m.t)) else s;
      Run(CheckConnection(beaten, fm, m.t), fm, moments[1..])
  }

  /** The latest heartbeat after a run, `heartbeat` when the run holds none. */
  function LastBeat(heartbeat: u32, moments: seq<Moment>): u32
    decreases |moments|
  {
    if |moments| == 0 then heartbeat
    else LastBeat(if moments[0].HeartbeatAt? then moments[0].t else heartbeat, moments[1..])
  }

  /**
    Every check of the run sees the latest heartbeat (`heartbeat` before the
    first one of the run) at most 5000 ms old and the message timestamp within
    its guard.
   */
  predicate Timely(heartbeat: u32, timestamp: u32, moments: seq<Moment>)
    decreases |moments|
  {
    || |moments| == 0
    || (var m := moments[0];
        var h := if m.HeartbeatAt? then m.t else heartbeat;
        && Elapsed(m.t, h) <= HeartbeatLimit
        && Elapsed(m.t, timestamp) <= TimestampLimit
        && Timely(h, timestamp, moments[1..]))
  }

  /** The session is connected after every moment of the run. */
  predicate ConnectedThroughout<F>(s: Server<F>, fm: Framer<F>, moments: seq<Moment>)
    decreases |moments|
  {
    || |moments| == 0
    || (var m := moments[0];
        var beaten := if m.HeartbeatAt? then s.(rpc := s.rpc.(heartbeat := m.t)) else s;
        var next := CheckConnection(beaten, fm, m.t);
        IsConnected(next) && ConnectedThroughout(next, fm, moments[1..]))
  }

  /**
    With the framer linked, a connected session stays connected through a run
    exactly when every check of the run is timely, and then only its
    heartbeat changes.
   */
  lemma {:induction false} SteadyRun<F>(s: Server<F>, fm: Framer<F>, moments: seq<Moment>)
    requires s.state == Connected && fm.connected(s.sfp)
    ensures ConnectedThroughout(s, fm, moments) <==> Timely(s.rpc.heartbeat, s.rpc.timestamp, moments)
    ensures Timely(s.rpc.heartbeat, s.rpc.timestamp, moments) ==>
              Run(s, fm, moments) == s.(rpc := s.rpc.(heartbeat := LastBeat(s.rpc.heartbeat, moments)))
    decreases |moments|
  {
    if |moments| > 0 {
      var m := moments[0];
      var beaten := if m.HeartbeatAt? then s.(rpc := s.rpc.(heartbeat := m.t)) else s;
      DisconnectCondition(beaten, fm, m.t);
      if IsConnected(CheckConnection(beaten, fm, m.t)) {
        SteadyRun(beaten, fm, moments[1..]);
      }
    }
  }

  /** A heartbeat every second up to t = 6000, with checks in between and two after the last one. */
  const Heartbeating: seq<Moment> := [
    CheckAt(500), HeartbeatAt(1000), CheckAt(1999), HeartbeatAt(2000), CheckAt(2500),
    HeartbeatAt(3000), CheckAt(3999), HeartbeatAt(4000), HeartbeatAt(5000), CheckAt(5002),
    HeartbeatAt(6000), CheckAt(9000), CheckAt(11000)]

  lemma HeartbeatingIsTimely()
    ensures Timely(0, 0, Heartbeating)
    ensures LastBeat(0, Heartbeating) == 6000
  {
    assert Timely(6000, 0, Heartbeating[12..]);
    assert Timely(6000, 0, Heartbeating[11..]);
    assert Timely(5000, 0, Heartbeating[10..]);
    assert Timely(5000, 0, Heartbeating[9..]);
    assert Timely(4000, 0, Heartbeating[8..]);
    assert Timely(3000, 0, Heartbeating[7..]);
    assert Timely(3000, 0, Heartbeating[6..]);
    assert Timely(2000, 0, Heartbeating[5..]);
    assert Timely(2000, 0, Heartbeating[4..]);
    assert Timely(1000, 0, Heartbeating[3..]);
    assert Timely(1000, 0, Heartbeating[2..]);
    assert Timely(0, 0, Heartbeating[1..]);
    assert Timely(0, 0, Heartbeating[0..]);
  }

  /**
    Connect at t = 0, then a heartbeat every second up to t = 6000 with checks
    in between: connected after every check, also the one 5000 ms after the
    last heartbeat, and disconnected by a check one millisecond later.
   */
  lemma SteadyHeartbeatScenario<F>(s: Server<F>, fm: Framer<F>)
    requires s.state == Disconnected && fm.connected(s.sfp)
    ensures ConnectedThroughout(CheckConnection(s, fm, 0), fm, Heartbeating)
    ensures Run(CheckConnection(s, fm, 0), fm, Heartbeating).rpc.heartbeat == 6000
    ensures !IsConnected(Run(CheckConnection(s, fm, 0), fm, Heartbeating + [CheckAt(11001)]))
  {
    var c := CheckConnection(s, fm, 0);
    assert Timely(c.rpc.heartbeat, c.rpc.timestamp, Heartbeating) && LastBeat(c.rpc.heartbeat, Heartbeating) == 6000 by {
      HeartbeatingIsTimely();
    }
    TimelyRunThenSilence(c, fm, Heartbeating, 11001);
  }

  /**
    A timely run keeps a connected, linked session connected throughout and
    leaves the latest heartbeat recorded; a check after it that comes more
    than `HeartbeatLimit` after that heartbeat disconnects.
   */
  lemma TimelyRunThenSilence<F>(s: Server<F>, fm: Framer<F>, moments: seq<Moment>, t: u32)
    requires s.state == Connected && fm.connected(s.sfp)
    requires Timely(s.rpc.heartbeat, s.rpc.timestamp, moments)
    requires Elapsed(t, LastBeat(s.rpc.heartbeat, moments)) > HeartbeatLimit
    ensures ConnectedThroughout(s, fm, moments)
    ensures Run(s, fm, moments).rpc.heartbeat == LastBeat(s.rpc.heartbeat, moments)
    ensures !IsConnected(Run(s, fm, moments + [CheckAt(t)]))
  {
    SteadyRun(s, fm, moments);
    RunThenCheck(s, fm, moments, t);
    HeartbeatTimeout(Run(s, fm, moments), fm, LastBeat(s.rpc.heartbeat, moments), t);
  }

  /** A run followed by one more check is that check on the run's result. */
  lemma RunThenCheck<F>(s: Server<F>, fm: Framer<F>, moments: seq<Moment>, t: u32)
    ensures Run(s, fm, moments + [CheckAt(t)]) == CheckConnection(Run(s, fm, moments), fm, t)
  {
    RunAppend(s, fm, moments, [CheckAt(t)]);
    SingleCheck(Run(s, fm, moments), fm, t);
  }

  lemma SingleCheck<F>(s: Server<F>, fm: Framer<F>, t: u32)
    ensures Run(s, fm, [CheckAt(t)]) == CheckConnection(s, fm, t)
  {
    assert [CheckAt(t)][1..] == [];
  }

  /** A run in two parts is the second part run from where the first left off. */
  lemma {:induction false} RunAppend<F>(s: Server<F>, fm: Framer<F>, a: seq<Moment>, b: seq<Moment>)
    ensures Run(s, fm, a + b) == Run(Run(s, fm, a), fm, b)
    decreases |a|
  {
    if |a| > 0 {
      assert (a + b)[1..] == a[1..] + b;
      var m := a[0];
      var beaten := if m.HeartbeatAt? then s.(rpc := s.rpc.(heartbeat := m.t)) else s;
      RunAppend(CheckConnection(beaten, fm, m.t), fm, a[1..], b);
    } else {
      assert a + b == b;
    }
  }

  // ---------------------------------------------------------------------------
  // The server task handle

  /** The session together with `serverThreadPointer`; `None` is a NULL handle. */
  datatype Lifecycle<F> = Lifecycle(server: Server<F>, task: Option<nat>)

  /**
    `serverStart`: with a task already recorded nothing happens; otherwise the
    handle becomes whatever the task creation returned (NULL on failure).
   */
  function Start<F>(c: Lifecycle<F>, created: Option<nat>): (r: Lifecycle<F>)
    ensures c.task.Some? ==> r == c
    ensures c.task.None? ==> r.task == created
    ensures r.server == c.server
  {
    if c.task.Some? then c else c.(task := created)
  }

  /** `serverStop`: forgets the handle; the running loop is not told to stop. */
  function Stop<F>(c: Lifecycle<F>): (r: Lifecycle<F>)
    ensures r.task.None?
    ensures r.server == c.server
  {
    c.(task := None)
  }

  /** Starting twice creates one task; after a stop a second task can be created. */
  lemma StartStopHandle<F>(c: Lifecycle<F>, a: nat, b: nat)
    ensures Start(Start(c, Some(a)), Some(b)) == Start(c, Some(a))
    ensures Start(Stop(Start(c, Some(a))), Some(b)).task == Some(b)
    ensures Stop(Start(c, Some(a))).server == c.server
  {
  }
}

=== FILE: tokenizer.dfy ===
/**
  The shell's tokenizer, `_strtok` (pros/src/shell.c), a `strtok_r`: each call
  skips leading delimiters, returns the following run of non-delimiters and
  remembers where to continue. A C string is modelled by its bytes before the
  terminating NUL; the continuation pointer is `None` for NULL and otherwise
  the text it points at.
 */
module Tokenizer {
  import opened Common

  const Space: u8 := 0x20
  const Tab: u8 := 0x09

  /** The delimiter literal `" \009"` of `shellThreadRun`: a space, the octal escape `\00` (NUL), then `'9'`. */
  const DelimiterLiteral: seq<u8> := [0x20, 0x00, 0x39]

  /** The set of delimiters a C string function sees in a delimiter string: its bytes before the first NUL. */
  function Delimiters(delim: seq<u8>): (d: set<u8>)
    ensures forall i | 0 <= i < |CString(delim)| :: CString(delim)[i] in d
  {
    if |delim| == 0 || delim[0] == 0 then {} else {delim[0]} + Delimiters(delim[1..])
  }

  /** The delimiters are exactly the bytes of the delimiter string's C string. */
  lemma {:induction false} DelimitersOfCString(delim: seq<u8>)
    ensures forall b :: b in Delimiters(delim) <==> b in CString(delim)
    decreases |delim|
  {
    if |delim| > 0 && delim[0] != 0 {
      DelimitersOfCString(delim[1..]);
      assert CString(delim) == [delim[0]] + CString(delim[1..]);
    }
  }

  /** The delimiters of the shell's literal: only the space, as `'9'` sits after the NUL. */
  lemma OnlySpaceDelimits()
    ensures Delimiters(DelimiterLiteral) == {Space}
  {
    assert DelimiterLiteral[1..][0] == 0;
  }

  /** `strspn`: the length of the leading run of delimiters. */
  function Span(s: seq<u8>, d: set<u8>): (n: nat)
    ensures n <= |s|
    ensures forall i | 0 <= i < n :: s[i] in d
    ensures n < |s| ==> s[n] !in d
  {
    if |s| == 0 || s[0] !in d then 0 else 1 + Span(s[1..], d)
  }

  /** `strpbrk` as a position: the index of the first delimiter, or the length when there is none. */
  function Break(s: seq<u8>, d: set<u8>): (n: nat)
    ensures n <= |s|
    ensures forall i | 0 <= i < n :: s[i] !in d
    ensures n < |s| ==> s[n] in d
  {
    if |s| == 0 || s[0] in d then 0 else 1 + Break(s[1..], d)
  }

  /** What one call returns, and the continuation it leaves behind. */
  datatype Split = Split(token: Option<seq<u8>>, save: Option<seq<u8>>)

  /** The text a call works on: `str` when given, otherwise the saved continuation. */
  function Source(str: Option<seq<u8>>, save: Option<seq<u8>>): Option<seq<u8>> {
    if str.Some? then str else save
  }

  /**
    `_strtok(str, delim, &save)`. The returned token is the maximal run of
    non-delimiters after the leading delimiters; the delimiter that ends it is
    overwritten with NUL and the continuation starts just after it. With no
    text, or only delimiters left, the result and the continuation are NULL.
   */
  function Strtok(str: Option<seq<u8>>, save: Option<seq<u8>>, delim: seq<u8>): (r: Split)
    ensures Source(str, save).None? ==> r == Split(None, None)
    ensures r.token.None? ==> r.save.None?
    ensures r.save.Some? ==> |r.save.value| < |Source(str, save).value|
  {
    match Source(str, save)
    case None => Split(None, None)
    case Some(text) => Scan(text, Delimiters(delim))
  }

  /** The work of one call on the text it is given, with the delimiter set `d`. */
  function Scan(text: seq<u8>, d: set<u8>): (r: Split)
    ensures r.token.None? ==> r.save.None?
    ensures r.save.Some? ==> |r.save.value| < |text|
  {
    var k := Span(text, d);
    var rest := text[k..];
    var n := Break(rest, d);
    Split(if n > 0 then Some(rest[..n]) else None, if n < |rest| then Some(rest[n + 1..]) else None)
  }

  /**
    What one call finds in its text: NULL exactly when only delimiters are
    left; otherwise a non-empty run of non-delimiters that follows the leading
    delimiters and ends at the end of the text (continuation NULL) or at a
    delimiter (continuation just after it).
   */
  predicate FindsRun(text: seq<u8>, d: set<u8>, r: Split) {
    && (r.token.None? <==> forall i | 0 <= i < |text| :: text[i] in d)
    && (r.token.Some? ==> RunAt(text, d, Span(text, d), r.token.value, r.save))
  }

  /** `t` is the run of non-delimiters at `k`, after delimiters only, and `save` is what follows its end. */
  predicate RunAt(text: seq<u8>, d: set<u8>, k: nat, t: seq<u8>, save: Option<seq<u8>>) {
    && 0 < |t| && k + |t| <= |text| && text[k..k + |t|] == t
    && (forall i | 0 <= i < k :: text[i] in d)
    && (forall i | 0 <= i < |t| :: t[i] !in d)
    && (k + |t| == |text| ==> save.None?)
    && (k + |t| < |text| ==> text[k + |t|] in d && save == Some(text[k + |t| + 1..]))
  }

  lemma StrtokFindsRun(str: Option<seq<u8>>, save: Option<seq<u8>>, delim: seq<u8>)
    requires Source(str, save).Some?
    ensures FindsRun(Source(str, save).value, Delimiters(delim), Strtok(str, save, delim))
  {
    ScanFindsRun(Source(str, save).value, Delimiters(delim));
  }

  /** `StrtokFindsRun` for the work of one call on a given text. */
  lemma ScanFindsRun(text: seq<u8>, d: set<u8>)
    ensures FindsRun(text, d, Scan(text, d))
  {
    var k := Span(text, d);
    var rest := text[k..];
    var n := Break(rest, d);
    if k < |text| {
      assert rest[0] == text[k];
      assert n > 0;
      assert rest[..n] == text[k..k + n];
      if n < |rest| {
        assert rest[n] == text[k + n];
        assert rest[n + 1..] == text[k + n + 1..];
      }
      assert RunAt(text, d, k, rest[..n], Scan(text, d).save);
    }
  }

  /** The tokens the later calls `_strtok(NULL, delim, &save)` return, until the first NULL. */
  function Remaining(save: Option<seq<u8>>, delim: seq<u8>): seq<seq<u8>>
    decreases if save.Some? then |save.value| + 1 else 0
  {
    var r := Strtok(None, save, delim);
    if r.token.None? then [] else [r.token.value] + Remaining(r.save, delim)
  }

  /** Every token of a line: one call with the line, then calls with NULL until one returns NULL. */
  function AllTokens(line: seq<u8>, delim: seq<u8>): seq<seq<u8>> {
    var r := Strtok(Some(line), None, delim);
    if r.token.None? then [] else [r.token.value] + Remaining(r.save, delim)
  }

  // ---------------------------------------------------------------------------
  // A reference definition: the non-empty fields between delimiters

  /** Splitting at every delimiter, keeping the empty fields between adjacent delimiters. */
  function Fields(s: seq<u8>, d: set<u8>): (fs: seq<seq<u8>>)
    ensures |fs| >= 1
  {
    if |s| == 0 then [[]]
    else
      var f := Fields(s[1..], d);
      if s[0] in d then [[]] + f else [[s[0]] + f[0]] + f[1..]
  }

  function NonEmpty(fs: seq<seq<u8>>): (ws: seq<seq<u8>>)
    ensures forall i | 0 <= i < |ws| :: |ws[i]| > 0
  {
    if |fs| == 0 then []
    else if |fs[0]| == 0 then NonEmpty(fs[1..])
    else [fs[0]] + NonEmpty(fs[1..])
  }

  /** The words of `s`: its non-empty fields. */
  function Words(s: seq<u8>, d: set<u8>): seq<seq<u8>> {
    NonEmpty(Fields(s, d))
  }

  lemma {:induction false} NonEmptyAppend(a: seq<seq<u8>>, b: seq<seq<u8>>)
    ensures NonEmpty(a + b) == NonEmpty(a) + NonEmpty(b)
  {
    if |a| == 0 {
      assert a + b == b;
    } else {
      assert (a + b)[1..] == a[1..] + b;
      NonEmptyAppend(a[1..], b);
    }
  }

  /** A run without delimiters joins the first field of what follows it. */
  lemma {:induction false} FieldsAfterRun(t: seq<u8>, u: seq<u8>, d: set<u8>)
    requires forall i | 0 <= i < |t| :: t[i] !in d
    ensures Fields(t + u, d) == [t + Fields(u, d)[0]] + Fields(u, d)[1..]
  {
    var f := Fields(u, d);
    if |t| == 0 {
      assert t + u == u;
      assert t + f[0] == f[0];
      assert f == [f[0]] + f[1..];
    } else {
      assert (t + u)[1..] == t[1..] + u;
      FieldsAfterRun(t[1..], u, d);
      assert [t[0]] + (t[1..] + f[0]) == t + f[0];
    }
  }

  /** Leading delimiters add only empty fields. */
  lemma {:induction false} LeadingDelimiters(s: seq<u8>, k: nat, d: set<u8>)
    requires k <= |s| && forall i | 0 <= i < k :: s[i] in d
    ensures Words(s[k..], d) == Words(s, d)
    decreases k
  {
    if k > 0 {
      assert s[1..][k - 1..] == s[k..];
      LeadingDelimiters(s[1..], k - 1, d);
      assert Fields(s, d) == [[]] + Fields(s[1..], d);
    }
  }

  /** The NULL-terminated calls enumerate exactly the words of the text. */
  lemma {:induction false} RemainingAreWords(s: seq<u8>, delim: seq<u8>)
    ensures Remaining(Some(s), delim) == Words(s, Delimiters(delim))
    decreases |s|
  {
    var d := Delimiters(delim);
    var k := Span(s, d);
    var rest := s[k..];
    var n := Break(rest, d);
    var r := Strtok(None, Some(s), delim);
    LeadingDelimiters(s, k, d);
    if |rest| == 0 {
      assert Fields(rest, d) == [[]];
      assert NonEmpty([[]]) == NonEmpty([]);
    } else {
      var t := rest[..n];
      assert n > 0 by { assert rest[0] == s[k]; }
      FieldsAfterRun(t, rest[n..], d);
      assert t + rest[n..] == rest;
      if n == |rest| {
        assert rest[n..] == [];
        assert Fields(rest, d) == [t + []] + [];
        assert t + [] == t;
        NonEmptyAppend([t], []);
        assert r == Split(Some(t), None);
      } else {
        var u := rest[n + 1..];
        assert rest[n..] == [rest[n]] + u;
        assert rest[n..][1..] == u;
        var g := Fields(rest[n..], d);
        assert g == [[]] + Fields(u, d);
        assert g[0] == [] && g[1..] == Fields(u, d);
        assert t + g[0] == t;
        assert Fields(rest, d) == [t] + Fields(u, d);
        NonEmptyAppend([t], Fields(u, d));
        assert r == Split(Some(t), Some(u));
        RemainingAreWords(u, delim);
      }
    }
  }

  /** Tokenising a line yields its words, in order. */
  lemma TokensAreWords(line: seq<u8>, delim: seq<u8>)
    ensures AllTokens(line, delim) == Words(line, Delimiters(delim))
  {
    assert AllTokens(line, delim) == Remaining(Some(line), delim);
    RemainingAreWords(line, delim);
  }

  /** With the shell's literal, a tab does not separate words. */
  lemma TabIsNotADelimiter()
    ensures AllTokens([0x61, Tab, 0x62], DelimiterLiteral) == [[0x61, Tab, 0x62]]
  {
    OnlySpaceDelimits();
    var tab: seq<u8> := [0x61, Tab, 0x62];
    TokensAreWords(tab, DelimiterLiteral);
    FieldsAfterRun(tab, [], {Space});
    assert tab + [] == tab;
    assert Fields([], {Space}) == [[]];
    assert Fields(tab, {Space}) == [tab];
    NonEmptyAppend([tab], []);
  }

  /** The fields of the text after the leading space in `SpacesSeparateWords`. */
  lemma SpacedFields()
    ensures Fields([0x61, Space, Space, 0x62, Space], {Space}) == [[0x61], [], [0x62], []]
  {
    var d := {Space};
    var a: seq<u8> := [0x61];
    var b: seq<u8> := [0x62];
    var tail1: seq<u8> := [Space, Space, 0x62, Space];
    var tail2: seq<u8> := [Space, 0x62, Space];
    var tail3: seq<u8> := [Space];
    var f3 := Fields(b + tail3, d);
    assert f3 == [b, []] by {
      FieldsAfterRun(b, tail3, d);
      assert tail3[1..] == [];
      assert Fields(tail3, d) == [[], []];
      assert b + [] == b;
    }
    var f2 := Fields(tail2, d);
    assert f2 == [[], b, []] by {
      assert tail2[1..] == b + tail3;
    }
    var f1 := Fields(tail1, d);
    assert f1 == [[], [], b, []] by {
      assert tail1[1..] == tail2;
    }
    assert [0x61, Space, Space, 0x62, Space] == a + tail1;
    FieldsAfterRun(a, tail1, d);
    assert a + f1[0] == a;
  }

  /** Runs of spaces, leading and trailing ones included, only separate words. */
  lemma SpacesSeparateWords()
    ensures AllTokens([Space, 0x61, Space, Space, 0x62, Space], DelimiterLiteral) == [[0x61], [0x62]]
  {
    OnlySpaceDelimits();
    var spaced: seq<u8> := [Space, 0x61, Space, Space, 0x62, Space];
    TokensAreWords(spaced, DelimiterLiteral);
    LeadingDelimiters(spaced, 1, {Space});
    assert spaced[1..] == [0x61, Space, Space, 0x62, Space];
    SpacedFields();
    var a: seq<u8> := [0x61];
    var b: seq<u8> := [0x62];
    NonEmptyAppend([a], [[], b, []]);
    NonEmptyAppend([[]], [b, []]);
    NonEmptyAppend([b], [[]]);
    assert NonEmpty([[]]) == [];
  }
}
